=== FILE: README.md ===
# rssync feed core, modelled in Dafny

rssync is a PHP web application. It polls RSS/Atom sources, stores their entries as
`feed_items` rows and serves user-defined *lists*. A list groups sources, and each
binding of a list to a source (a `list_sources` row) can carry author and category
whitelists and blacklists. This project models the core of that system as pure Dafny
functions over immutable data:

- **Ingestion** (`FeedService::refreshSource`, `refreshAll`). Every parsed entry
  becomes a row. The fields take their fallbacks: the guid, the German "Ohne Titel"
  title, the joined authors and categories, and the image. Each field is cut to its
  column width. An entry whose `(source_id, guid)` is already stored is skipped. A
  failed fetch or parse returns -1. `refreshAll` reports totals.
- **Image extraction** (`extractImageUrl`, `extractFirstImageFromHtml`,
  `isValidImageUrl`). The enclosure comes first, then `media:content`, then
  `media:thumbnail`, then images in the content HTML and in the description. Each
  candidate image must pass the skip-pattern check and start with `http://` or `https://`.
- **List filters** (`ListSource::get*Array`, `filterItem`, `FeedItem::getCategoriesArray`).
  The comma lists are exploded and trimmed. `stripos` is case-insensitive and
  matches an empty term everywhere.
- **Aggregation** (`getFilteredItems`, `getListItems`). These return the newest items
  of a source that pass a binding's filters, and the merged, date-sorted and
  truncated items of a list.
- **Facets** (`getSourceAuthors`, `getSourceCategories`). These are the distinct,
  non-empty, trimmed pieces of a source's author or category column.
- **Lists** (`FeedList::generateSlug`, `FeedListController::store`, `update`,
  `updateSources`). This covers slug normalisation and the first free `-k` suffix,
  the blank-name and ownership rules, and the replacement of a list's bindings with
  filter normalisation.

Collections are sequences in table order. The database is a value that an operation
maps to a new value. Each unique index is stated as an invariant the operations
preserve:
- `feed_items (source_id, guid)` in `database/migrations/20241229000004_create_feed_items_table.php:23`;
- `lists (slug)` at `20241229000005_create_lists_table.php:20`;
- `list_sources (list_id, source_id)` at `20241229000006_create_list_sources_table.php:23`.

The outside world is a parameter (`Ingestion.Env`):
- the HTTP fetch;
- the Laminas feed parser;
- `md5`;
- the `<img src>` regex scan;
- the current time.

Modules, one per file: `Wrappers`, `PhpStrings` (trim, strtolower, stripos, substr,
truthiness), `Explode`, `Decimal`, `Entries` (the parsed feed entry), `FeedItems`,
`ListFilter`, `Images`, `Ingestion`, `Aggregation`, `Facets`, `Slugs`, `ListController`.

## Model

| member | source | states |
|---|---|---|
| PhpStrings.ContainsAny | src/Models/ListSource.php:71-76 | a term loop finds a match exactly when some term occurs in the text, ignoring ASCII letter case |
| PhpStrings.EmptyNeedleFound | src/Models/ListSource.php:72 | an empty term occurs in every author text, as `stripos` with an empty needle does |
| PhpStrings.TrimWith | src/Models/ListSource.php:38 | trimming leaves no cut character at either end and returns a contiguous piece of the input with only cut characters before and after it, so only cut characters are removed |
| PhpStrings.TrimIdempotent | src/Models/ListSource.php:38 | trimming twice equals trimming once |
| PhpStrings.Truncate | src/Services/FeedService.php:99-105 | `substr(s, 0, n)` (and `array_slice` at line 186) is a prefix of at most `n` elements: the whole input when it fits, exactly `n` elements otherwise |
| Explode.Split | src/Models/ListSource.php:38 | `explode` yields at least one piece and no piece holds the delimiter |
| Explode.JoinSplit | src/Models/ListSource.php:38 | joining the exploded pieces with the delimiter gives back the original string |
| Explode.SplitJoin | src/Models/ListSource.php:38 | exploding a join of delimiter-free parts gives back the parts |
| Explode.SplitCount | src/Models/ListSource.php:38 | `explode` yields one piece more than the delimiter occurs |
| Explode.Terms | src/Models/ListSource.php:33-63 | a filter column gives no terms exactly when it is null or falsy; otherwise there is one term per comma plus one, and term `k` is the `k`-th piece of `explode(',')`, trimmed (so trimmed and comma-free) |
| Explode.TermsOfJoin | src/Controllers/FeedListController.php:235 | a multi-select saved with `implode(',')` explodes back into the selected names |
| Explode.TrailingCommaEmptyTerm | src/Models/ListSource.php:38 | a filter ending in a comma yields an empty last term |
| FeedItems.CategoriesArray | src/Models/FeedItem.php:38-44 | the categories of an item are empty exactly when the column is null or falsy; otherwise label `k` is the `k`-th piece of `explode(',')`, trimmed, one per comma plus one |
| FeedItems.CategoriesRoundTrip | src/Models/FeedItem.php:38-44 | trimmed comma-free labels that fit the 500-character column are read back unchanged from the stored join |
| ListFilter.AnyCategoryMatches | src/Models/ListSource.php:93-102 | the nested category loop matches exactly when some item category contains some term |
| ListFilter.Stages | src/Models/ListSource.php:65-120 | the four filter stages pass exactly when the whitelists match (when non-empty) and neither blacklist matches |
| ListFilter.FilterItem | src/Models/ListSource.php:65-120 | `filterItem` is true exactly when the item passes the binding's four lists |
| ListFilter.UnfilteredPassesAll | src/Models/ListSource.php:65-120 | a binding with no filter lists passes every item |
| ListFilter.AuthorBlacklistWins | src/Models/ListSource.php:83-88 | an author matching a blacklist term rejects the item, whatever the whitelists say |
| ListFilter.CategoryWhitelistNeedsCategories | src/Models/ListSource.php:91-106 | a non-empty category whitelist rejects every item without categories |
| ListFilter.AliceWhitelist | src/Models/ListSource.php:68-80 | with only an author whitelist `Alice`, the item passes exactly when its author contains "alice" in any letter case |
| ListFilter.WhitelistOnly | src/Models/ListSource.php:68-80 | with only an author whitelist, the verdict is whether some term occurs in the author |
| ListFilter.StrayCommaAuthorBlacklistRejectsAll | src/Models/ListSource.php:83-88 | an author blacklist ending in a comma has an empty term and rejects every item |
| ListFilter.StrayCommaCategoryBlacklistRejectsCategorised | src/Models/ListSource.php:108-117 | a category blacklist ending in a comma rejects every item that has categories |
| Images.IsValidImageUrl | src/Services/FeedService.php:350-373 | a URL is accepted exactly when no skip pattern occurs in it (ignoring case) and it starts with `http://` or `https://` |
| Images.AnalyticsUrlRejected | src/Services/FeedService.php:353-365 | a URL containing google-analytics.com is never accepted |
| Images.ValidIsHttp | src/Services/FeedService.php:368-370 | an accepted URL is at least seven characters long and starts, case-sensitively, with `http://` or `https://` |
| Images.ValidWithoutWitnesses | src/Services/FeedService.php:353-365 | a lower-case http URL avoiding one character from each skip pattern is accepted |
| Images.FirstValidImage | src/Services/FeedService.php:334-345 | the first accepted `src`, if any, is returned; none is returned exactly when no `src` is accepted |
| Images.EnclosureImage | src/Services/FeedService.php:257-267 | the enclosure URL is used, unchecked, exactly when the entry has an enclosure with a URL whose type is empty or an `image/` type |
| Images.FromMediaContent | src/Services/FeedService.php:277-292 | a media:content node gives the image when its medium is `image`, its type is an `image/` type or it has no medium, and its URL is truthy and accepted; none exactly when no node qualifies |
| Images.FirstWithUrl | src/Services/FeedService.php:295-297 | the first thumbnail node with a url attribute; none exactly when no node has one |
| Images.FromThumbnails | src/Services/FeedService.php:295-301 | only the first thumbnail with a URL is considered: its URL is the result exactly when it is accepted |
| Images.FromHtml | src/Services/FeedService.php:308-326 | HTML yields an accepted image taken from its scan, or none exactly when it is empty or no scanned `src` is accepted; non-empty HTML yields the first accepted `src` |
| Images.ExtractImageUrl | src/Services/FeedService.php:254-329 | the enclosure URL wins unchecked; otherwise the first stage with a result decides, in the order media content, thumbnail, content HTML, description HTML; any such result is an accepted candidate of the entry itself; none means every stage found nothing |
| Images.MediaStageWins | src/Services/FeedService.php:270-292 | without an enclosure, an accepted first media node is the image, whatever follows |
| Images.DocumentScopeBorrowsImage | src/Services/FeedService.php:277-278 | with the document-scoped XPath, the second entry of a feed takes the first entry's image; scoped to the entry, it keeps its own |
| Ingestion.TruthyValues | src/Services/FeedService.php:81 | `array_filter` keeps only truthy names, keeps every truthy name, and is empty exactly when no name is truthy |
| Ingestion.TruthyValuesSnoc | src/Services/FeedService.php:81 | one more name extends the kept names by that name exactly when it is truthy, so the result is all truthy names in order |
| Ingestion.JoinTruthy | src/Services/FeedService.php:81-84 | a join of truthy names is truthy exactly when there is a name, so the author is null exactly when no name survives |
| Ingestion.ItemFor | src/Services/FeedService.php:38-107 | a new row fits its columns, keeps the source id and the truncated guid, falls back to "Ohne Titel", cuts title, link, author line, category join and image URL to their columns with `substr`, is null for authors and categories exactly when there are none, holds the body (or else the description) as content, and dates the row by the modified date, else the created date, else now |
| Ingestion.FallbackGuidShared | src/Services/FeedService.php:40 | two entries without a truthy id that have the same link and the same title get the same md5 guid, whatever their dates |
| Ingestion.CategoriesSurviveStorage | src/Services/FeedService.php:47-64 | short trimmed comma-free labels are read back by `getCategoriesArray` as stored |
| Ingestion.SaveNew | src/Services/FeedService.php:43-45 | an item whose `(source_id, guid)` is stored is skipped, otherwise appended; the unique index is kept |
| Ingestion.Ingest | src/Services/FeedService.php:38-110 | only new rows of this source are appended, every entry's key is present afterwards, and the unique index is kept |
| Ingestion.IngestFresh | src/Services/FeedService.php:38-110 | the rows appended are exactly those of the entries whose key is neither stored nor taken by an earlier entry of the feed, in feed order |
| Ingestion.IngestAllPresent | src/Services/FeedService.php:43-45 | when every entry is already stored, nothing is added |
| Ingestion.IngestIdempotent | src/Services/FeedService.php:38-110 | ingesting the same entries twice adds nothing the second time |
| Ingestion.FallbackTwinSkipped | src/Services/FeedService.php:40-45 | a second id-less twin entry is skipped as a duplicate |
| Ingestion.RefreshSource | src/Services/FeedService.php:28-121 | -1 with nothing changed exactly when fetch or parse fails; otherwise the rows appended are exactly those of the entries whose key is new, at their first occurrence and in feed order, every entry's key is stored afterwards, `last_refresh` is set to now and the count of new rows is returned |
| Ingestion.RefreshIdempotent | src/Services/FeedService.php:28-121 | refreshing an unchanged feed again returns 0 and changes nothing |
| Ingestion.IngestAsWritten | src/Services/FeedService.php:40-107 | as written: the loop keeps earlier rows and the unique index, and stops at an exception |
| Ingestion.RefreshSourceAsWritten | src/Services/FeedService.php:28-121 | as written: a non-negative result counts the appended rows |
| Ingestion.AsWrittenAgreesOnShortGuids | src/Services/FeedService.php:40-45 | while no guid exceeds 500 characters, the loop as written equals the corrected loop |
| Ingestion.LongGuidBreaksIdempotence | src/Services/FeedService.php:43-45 | with a 501-character id, the second refresh as written returns -1; corrected, it returns 0 |
| Ingestion.CountSumSnoc | src/Services/FeedService.php:136-141 | one more result adds one success and its count when non-negative, nothing otherwise |
| Ingestion.FoldAt | src/Services/FeedService.php:134-144 | the `k`-th result and source row of a fold are those of its `k`-th step, run on the store the first `k` steps left |
| Ingestion.FoldResultAt | src/Services/FeedService.php:134-144 | the `k`-th result of `refreshAll` is `refreshSource` of the `k`-th source against the store the first `k` refreshes left |
| Ingestion.RefreshAll | src/Services/FeedService.php:123-145 | the results, source rows and store are those of refreshing every source in turn, each against the store the previous refreshes left; success plus failed is the total; failure exactly when the fetch fails; new items is the sum of non-negative results and the growth of the store; the unique index is kept |
| Aggregation.Insert | src/Services/FeedService.php:182-184 | inserting into a date-sorted list keeps it sorted, adds the item, and keeps items of equal date in order |
| Aggregation.SortDesc | src/Services/FeedService.php:182-184 | the result is sorted newest first, a permutation of the input, and stable on equal dates |
| Aggregation.BySource | src/Services/FeedService.php:149-151 | exactly the rows of the source, in table order |
| Aggregation.BySourceCounts | src/Services/FeedService.php:149-151 | each row of the source as often as the table holds it, and no other row |
| Aggregation.Recent | src/Services/FeedService.php:149-153 | `n` rows of the source, or all of them when it has fewer, newest first, taken from the source's rows at most as often as stored; no row of the source left out is newer than the last one returned |
| Aggregation.RecentOf | src/Services/FeedService.php:149-153 | cutting a date-sorted permutation of one source's rows to `n` gives `n` (or all) of them, sorted, and the newest ones |
| Aggregation.NewestOf | src/Services/FeedService.php:150-153 | a prefix of a date-sorted permutation holds the newest rows |
| Aggregation.PassingMembers | src/Services/FeedService.php:158-162 | the filter keeps an item of the batch exactly when it passes |
| Aggregation.PassingSubsequence | src/Services/FeedService.php:158-162 | the kept items appear in batch order |
| Aggregation.PassingMultiset | src/Services/FeedService.php:158-162 | the filter keeps every passing item as often as the batch holds it, and nothing else |
| Aggregation.PassingSorted | src/Services/FeedService.php:158-162 | filtering a date-sorted batch keeps it sorted |
| Aggregation.PassingMonotone | src/Services/FeedService.php:156-165 | a longer prefix of the batch keeps a longer prefix of the result |
| Aggregation.TakePassing | src/Services/FeedService.php:156-165 | the loop keeps the passing items of a prefix of the batch, and stops at the end of the batch or once `limit` are kept |
| Aggregation.GetFilteredItems | src/Services/FeedService.php:147-167 | at most `limit` items of the source, each passing the filter, in date order, drawn in order from the newest `2*limit` rows |
| Aggregation.BindingsOf | src/Services/FeedService.php:171-173 | the bindings of the list in table order (a subsequence of the table), every binding of the list and no other |
| Aggregation.BindingsOfCounts | src/Services/FeedService.php:171-173 | each binding of the list as often as the table holds it, and no other binding |
| Aggregation.Gathered | src/Services/FeedService.php:175-180 | every gathered item passes the filter of a binding of its source |
| Aggregation.GetListItems | src/Services/FeedService.php:169-187 | the merged items sorted newest first, cut to `limit`, each from some binding, with equal dates in gathering order |
| Facets.Column | src/Services/FeedService.php:194-199 | exactly the column values of the source's rows, nulls and empty strings left out |
| Facets.FlattenMembers | src/Services/FeedService.php:202-206 | a piece is in the flattened list exactly when it is a trimmed piece of some value |
| Facets.KeepTruthy | src/Services/FeedService.php:208 | `array_filter` keeps exactly the truthy pieces |
| Facets.Dedup | src/Services/FeedService.php:208 | `array_unique` keeps the same members, each once |
| Facets.DedupPrefix | src/Services/FeedService.php:208 | values appear in the order of their first occurrence: the result for a prefix is a prefix of the result |
| Facets.DedupDistinct | src/Services/FeedService.php:208 | a list without repeats is unchanged by `array_unique` |
| Facets.FlattenedColumn | src/Services/FeedService.php:192-209 | a piece is flattened exactly when some row of the source has it in its column |
| Facets.Facet | src/Services/FeedService.php:192-231 | the result is distinct, truthy, trimmed and comma-free, and holds exactly the truthy pieces of the source's column |
| Facets.ItemCategoriesOffered | src/Services/FeedService.php:214-231 | every truthy category label of a stored item is offered for its source |
| Facets.AuthorPiecesOfJoin | src/Services/FeedService.php:81 | authors joined with ", " split back into the same names |
| Facets.AuthorsOffered | src/Services/FeedService.php:192-209 | every name an entry contributed to a stored row is offered for its source |
| Slugs.Dashify | src/Models/FeedList.php:41 | same length; a character outside `[a-z0-9-]` becomes a dash and every other character stays |
| Slugs.Collapse | src/Models/FeedList.php:42 | no two dashes stay adjacent, the non-dash characters stay in order, and a single dash stands exactly where the input has a run of dashes (same dash marks) |
| Slugs.CollapseUnique | src/Models/FeedList.php:42 | these three facts determine the collapsed string: any string with them equals `Collapse` of the input |
| Slugs.MarksDetermine | src/Models/FeedList.php:42 | two strings without adjacent dashes that agree on their non-dash characters and dash marks are equal |
| Slugs.SlugBase | src/Models/FeedList.php:40-43 | the base slug uses only `[a-z0-9-]`, has no double dash and no dash at either end |
| Slugs.SlugFixed | src/Models/FeedList.php:40-43 | a slug-shaped name normalises to itself |
| Slugs.SlugBaseIdempotent | src/Models/FeedList.php:40-43 | normalising a base slug again changes nothing |
| Slugs.TwoWordSlug | src/Models/FeedList.php:40-43 | two words of letters separated by a space, such as "Hello World", become the lower-cased words joined by one dash (`hello-world`) |
| Slugs.CandidateInjective | src/Models/FeedList.php:49 | different counters give different suffixed slugs |
| Slugs.CandidatesBound | src/Models/FeedList.php:48-51 | the loop cannot pass more counters than slugs in use, so it terminates |
| Slugs.GenerateSlug | src/Models/FeedList.php:38-54 | the slug is free; it is the base when the base is free, otherwise `base-k` for the first free `k >= 1` |
| Slugs.GenerateSlugLoop | src/Models/FeedList.php:45-53 | the `while` loop returns the free slug with the smallest counter |
| ListController.FreshSlugKeepsUnique | database/migrations/20241229000005_create_lists_table.php:20 | adding a row with a free slug keeps slugs unique |
| ListController.StoreList | src/Controllers/FeedListController.php:48-74 | a list is created exactly when the trimmed name is non-empty and a user is signed in, with the trimmed name and the slug `generateSlug` gives for it against the slugs in use, which is free; otherwise nothing changes |
| ListController.Rename | src/Controllers/FeedListController.php:122-129 | the slug is kept when the name differs only in case, and freshly generated otherwise; other lists stay and slugs stay unique |
| ListController.UpdateList | src/Controllers/FeedListController.php:97-133 | a list is saved exactly when the user owns it and the trimmed name is non-empty; otherwise nothing changes |
| ListController.RenameToOwnBaseGetsSuffix | src/Controllers/FeedListController.php:123-124 | a rename that normalises to the list's own slug but differs in more than case moves the list to a `-k` slug |
| ListController.NormaliseFilter | src/Controllers/FeedListController.php:235-238 | an array is joined with commas; text is trimmed, and empty or "0" becomes null |
| ListController.SelectedNamesRoundTrip | src/Controllers/FeedListController.php:235 | selected names saved as a comma join are read back as the same terms |
| ListController.NewBinding | src/Controllers/FeedListController.php:223-239 | a source without submitted filters gets an unfiltered binding; otherwise each of the four lists is the normalised submitted field |
| ListController.Wanted | src/Controllers/FeedListController.php:220-242 | one new binding per selected source, in selection order |
| ListController.OthersIdempotent | src/Controllers/FeedListController.php:217 | deleting a list's bindings twice equals deleting them once |
| ListController.UpdateSources | src/Controllers/FeedListController.php:196-246 | rejected, with nothing changed, exactly when the user does not own the list; other lists keep their bindings; without repeats the list's bindings become the selection; otherwise the request aborts at the first repeated source, after the bindings of the sources before it |

## Left out

- The HTTP fetch (`fetchUrl`) is a parameter `Env.fetch`. So are the Laminas feed parser, `md5`, the `<img src>` regex scan and the clock. `validateFeed` is not modelled.
- `error_log` calls and the per-field `try`/`catch` blocks inside the entry loop are not modelled: a field accessor of the modelled parser never throws.
- The DOM/XPath query is modelled as the sequence of `media:content` and `media:thumbnail` attribute maps it returns.
- The MySQL collation is not modelled. Guids and slugs are compared exactly, whereas the database may compare them case-insensitively.
- The `DISTINCT` in the author and category queries is not modelled; `array_unique` removes the same repeats later.
- Rows with equal publication dates are assumed to come back in table order, for `ORDER BY` and for `usort`. PHP 8's sort is stable.
- Foreign keys, cascading deletes and `created_at`/`updated_at` timestamps are not modelled.
- Negative limits are excluded: `limit` is a `nat`.
- Dates are integer timestamps. A missing date falls back to the current time.
- The `(int)` casts of ids are the identity on `nat`.
- `array_unique` keeping the original keys is not modelled; the result is a list.
- Strings are sequences of characters. Only ASCII letters change case, and there is no multibyte handling.
- A missing `user_id` attribute is user id 0.
- Flash messages, redirects and views are reduced to a saved flag or a `Status`.
- The HomeController RSS output and the other controllers are outside this model.
- Aggregation.Passing: its own contract states only the length bound and that every kept item passes; membership in both directions is Aggregation.PassingMembers.
- Column widths that the code does not cut values to are not modelled. These are `feed_items.content` (a MySQL `TEXT` column, 64 KiB), the four filter columns of `list_sources` (1000 characters each), `lists.name` (255 characters) and `lists.slug` (255 characters). The model stores a value of any length. A database in strict mode would reject the save with an exception instead; the connection settings leave that mode to the server.
- Ingestion.RefreshSource: never fails because an entry's content is longer than its `TEXT` column, so it does not return -1 for a save the database rejects; only a failed fetch or parse gives -1. The same holds for Ingestion.Ingest and Ingestion.RefreshAll.
- ListController.UpdateSources: does not abort when a submitted filter list joins to more than 1000 characters; ListController.UpdateSources and ListController.NewBinding store the joined string whole.
- ListController.StoreList: stores a name longer than 255 characters, and a slug longer than 255 characters (including the `-k` suffix added to a 255-character base), instead of failing the save; so a list is saved for every non-blank name. The same holds for ListController.Rename and ListController.UpdateList.
- Ingestion.RefreshSourceAsWritten: states only the count relation; its divergence from the corrected refresh is Ingestion.LongGuidBreaksIdempotence.
- Ingestion.IngestAsWritten: builds each row with the entry-scoped image lookup, so it is as written only in its guid lookup; the document-scoped image lookup is Images.ExtractImageUrlInDocument on its own.
- Images.DocumentNodes: collects the media elements of the feed's entries only; channel-level media elements, which the document-scoped query also sees, are not modelled.
- Facets.Column: states the membership of the column values, not their multiplicity.

## Findings

| source | as written | input that shows it | evidently intended | confidence | as-written member | corrected member |
|---|---|---|---|---|---|---|
| src/Services/FeedService.php:43-45 | the existence check looks up the full guid, but line 99 stores only its first 500 characters | a feed with one entry whose id is 501 characters long, refreshed twice: the second refresh does not find the stored row, its insert hits the unique `(source_id, guid)` index, and `refreshSource` returns -1 | look up the guid as it is stored, so that a second refresh returns 0 | not executed | Ingestion.IngestAsWritten, Ingestion.LongGuidBreaksIdempotence | Ingestion.Ingest, Ingestion.RefreshIdempotent |
| src/Services/FeedService.php:277-278 | `//media:content` is evaluated against the whole document, not the entry | a feed of two entries, each with only a media:content image: the second entry receives the first entry's image | search the entry's own `media:content` nodes | not executed | Images.ExtractImageUrlInDocument, Images.DocumentScopeBorrowsImage | Images.ExtractImageUrl, Images.MediaStageWins |

=== FILE: aggregation.dfy ===
/**
  Reading items back: the per-binding item list of `getFilteredItems` and the
  merged list of `getListItems`.

  The database's `ORDER BY pub_date DESC` is the stable sort `SortDesc` over the
  table in insertion order, so rows with equal dates come out in table order.
  PHP 8's `usort` is stable too, so the same sort models the merge.
 */
module Aggregation {
  import opened Wrappers
  import opened PhpStrings
  import opened FeedItems
  import opened ListFilter
  import opened Ingestion

  predicate SortedDesc(s: seq<FeedItem>) {
    forall i, j :: 0 <= i < j < |s| ==> s[i].pubDate >= s[j].pubDate
  }

  /** The items of `s` dated `d`, in order. */
  function WithDate(s: seq<FeedItem>, d: int): seq<FeedItem> {
    if |s| == 0 then []
    else (if s[0].pubDate == d then [s[0]] else []) + WithDate(s[1..], d)
  }

  /** Puts `x` in front of every item of `t` that is not newer than it. */
  function Insert(x: FeedItem, t: seq<FeedItem>): (r: seq<FeedItem>)
    requires SortedDesc(t)
    ensures SortedDesc(r)
    ensures multiset(r) == multiset(t) + multiset{x}
    ensures forall d :: WithDate(r, d) == if x.pubDate == d then [x] + WithDate(t, d) else WithDate(t, d)
  {
    if |t| == 0 || t[0].pubDate <= x.pubDate then
      InsertFront(x, t);
      [x] + t
    else
      var rest := Insert(x, t[1..]);
      InsertBehindSorted(x, t, rest);
      InsertBehindDates(x, t, rest);
      [t[0]] + rest
  }

  lemma InsertFront(x: FeedItem, t: seq<FeedItem>)
    requires SortedDesc(t) && (|t| == 0 || t[0].pubDate <= x.pubDate)
    ensures SortedDesc([x] + t)
    ensures forall d :: WithDate([x] + t, d) == if x.pubDate == d then [x] + WithDate(t, d) else WithDate(t, d)
  {
    assert ([x] + t)[1..] == t;
  }

  lemma InsertBehindSorted(x: FeedItem, t: seq<FeedItem>, rest: seq<FeedItem>)
    requires SortedDesc(t) && |t| > 0 && t[0].pubDate > x.pubDate
    requires SortedDesc(rest) && multiset(rest) == multiset(t[1..]) + multiset{x}
    ensures SortedDesc([t[0]] + rest)
    ensures multiset([t[0]] + rest) == multiset(t) + multiset{x}
  {
    assert t == [t[0]] + t[1..];
    forall k | 0 <= k < |rest|
      ensures rest[k].pubDate <= t[0].pubDate
    {
      assert rest[k] in multiset(rest);
    }
  }

  lemma InsertBehindDates(x: FeedItem, t: seq<FeedItem>, rest: seq<FeedItem>)
    requires |t| > 0 && t[0].pubDate > x.pubDate
    requires forall d :: WithDate(rest, d) == if x.pubDate == d then [x] + WithDate(t[1..], d) else WithDate(t[1..], d)
    ensures forall d :: WithDate([t[0]] + rest, d) == if x.pubDate == d then [x] + WithDate(t, d) else WithDate(t, d)
  {
    assert ([t[0]] + rest)[1..] == rest;
  }

  /**
    Newest first; equal dates keep their order. The result is a permutation of `s`,
    sorted by date descending, whose items of any one date are in their order in `s`.
   */
  function SortDesc(s: seq<FeedItem>): (r: seq<FeedItem>)
    ensures SortedDesc(r)
    ensures multiset(r) == multiset(s)
    ensures forall d :: WithDate(r, d) == WithDate(s, d)
  {
    if |s| == 0 then []
    else
      assert s == [s[0]] + s[1..];
      Insert(s[0], SortDesc(s[1..]))
  }

  /** Whether an item belongs to source `sid`: `where source_id = sid`. */
  function OfSource(sid: nat): FeedItem -> bool {
    (item: FeedItem) => item.sourceId == sid
  }

  /**
    The items of one source, in table order: every stored row of the source, as
    often as it is stored, and nothing else.
   */
  function BySource(store: Store, sid: nat): (r: seq<FeedItem>)
    ensures IsSubsequence(r, store)
    ensures forall k :: 0 <= k < |r| ==> r[k].sourceId == sid && r[k] in store
    ensures forall k :: 0 <= k < |store| && store[k].sourceId == sid ==> store[k] in r
  {
    var r := Passing(OfSource(sid), store);
    PassingMembers(OfSource(sid), store);
    PassingSubsequence(OfSource(sid), store);
    r
  }

  /** `BySource` holds each row of the source as often as the store does, and no other row. */
  lemma BySourceCounts(store: Store, sid: nat)
    ensures forall x :: multiset(BySource(store, sid))[x] == if x.sourceId == sid then multiset(store)[x] else 0
  {
    PassingMultiset(OfSource(sid), store);
  }

  /**
    `where source_id = sid order by pub_date desc limit n`: the `n` newest items of
    the source (all of them when it has fewer), newest first; no item of the source
    left out is newer than the last one returned.
   */
  function Recent(store: Store, sid: nat, n: nat): (r: seq<FeedItem>)
    ensures |r| == if |BySource(store, sid)| <= n then |BySource(store, sid)| else n
    ensures SortedDesc(r)
    ensures forall k :: 0 <= k < |r| ==> r[k].sourceId == sid && r[k] in store
    ensures NewestRows(BySource(store, sid), r)
  {
    var b := BySource(store, sid);
    var all := SortDesc(b);
    RecentOf(b, all, store, sid, n);
    Truncate(all, n)
  }

  /** Cutting a date-sorted permutation of one source's rows to `n` gives its `n` newest rows. */
  lemma RecentOf(b: seq<FeedItem>, all: seq<FeedItem>, store: Store, sid: nat, n: nat)
    requires forall k :: 0 <= k < |b| ==> b[k].sourceId == sid && b[k] in store
    requires SortedDesc(all) && multiset(all) == multiset(b)
    ensures var r := Truncate(all, n);
            && |r| == (if |b| <= n then |b| else n)
            && SortedDesc(r)
            && (forall k :: 0 <= k < |r| ==> r[k].sourceId == sid && r[k] in store)
            && NewestRows(b, r)
  {
    var r := Truncate(all, n);
    assert |all| == |multiset(all)| == |b|;
    forall k | 0 <= k < |r|
      ensures r[k].sourceId == sid && r[k] in store
    {
      assert r[k] in multiset(b);
    }
    NewestOf(b, all, r);
  }

  /**
    `r` holds rows of `b` as often as `b` does at most, and every row of `b` it
    leaves out is no newer than the last one it holds.
   */
  predicate NewestRows(b: seq<FeedItem>, r: seq<FeedItem>) {
    && multiset(r) <= multiset(b)
    && (|r| > 0 ==> forall x :: x in multiset(b) - multiset(r) ==> x.pubDate <= r[|r| - 1].pubDate)
  }

  /** The first rows of a permutation `all` of `b` sorted newest first are the newest rows of `b`. */
  lemma NewestOf(b: seq<FeedItem>, all: seq<FeedItem>, r: seq<FeedItem>)
    requires SortedDesc(all) && multiset(all) == multiset(b)
    requires r <= all
    ensures NewestRows(b, r)
  {
    assert r == all[..|r|];
    NewestPrefix(all, |r|);
  }

  /** The first `m` items of a list sorted newest first are at least as new as every other item. */
  lemma NewestPrefix(all: seq<FeedItem>, m: nat)
    requires SortedDesc(all) && m <= |all|
    ensures multiset(all[..m]) <= multiset(all)
    ensures m > 0 ==> forall x :: x in multiset(all) - multiset(all[..m]) ==> x.pubDate <= all[m - 1].pubDate
  {
    assert all == all[..m] + all[m..];
    assert multiset(all) == multiset(all[..m]) + multiset(all[m..]);
    assert multiset(all) - multiset(all[..m]) == multiset(all[m..]);
    forall x | x in multiset(all[m..])
      ensures m > 0 ==> x.pubDate <= all[m - 1].pubDate
    {
      var j :| m <= j < |all| && all[j] == x;
    }
  }

  /** `a` is `b` with some items left out, the rest in order. */
  predicate IsSubsequence<T(==)>(a: seq<T>, b: seq<T>)
    decreases |b|
  {
    if |a| == 0 then true
    else if |b| == 0 then false
    else (a[|a| - 1] == b[|b| - 1] && IsSubsequence(a[..|a| - 1], b[..|b| - 1])) || IsSubsequence(a, b[..|b| - 1])
  }

  /** The items of `s` that `keep` accepts, in order. */
  function Passing<T>(keep: T -> bool, s: seq<T>): (r: seq<T>)
    ensures |r| <= |s|
    ensures forall k :: 0 <= k < |r| ==> keep(r[k])
    decreases |s|
  {
    if |s| == 0 then []
    else
      var rest := Passing(keep, s[..|s| - 1]);
      if keep(s[|s| - 1]) then
        var r := rest + [s[|s| - 1]];
        assert r[..|r| - 1] == rest;
        r
      else rest
  }

  /** `Passing` keeps exactly the items of `s` that `keep` accepts. */
  lemma {:induction false} PassingMembers<T>(keep: T -> bool, s: seq<T>)
    ensures forall k :: 0 <= k < |Passing(keep, s)| ==> Passing(keep, s)[k] in s
    ensures forall k :: 0 <= k < |s| && keep(s[k]) ==> s[k] in Passing(keep, s)
    decreases |s|
  {
    if |s| > 0 {
      var init := s[..|s| - 1];
      PassingMembers(keep, init);
      var rest := Passing(keep, init);
      assert s == init + [s[|s| - 1]];
      assert forall k :: 0 <= k < |rest| ==> rest[k] in s;
      if keep(s[|s| - 1]) {
        assert Passing(keep, s) == rest + [s[|s| - 1]];
      }
    }
  }

  /** `Passing` keeps every accepted item as often as `s` holds it, and nothing else. */
  lemma {:induction false} PassingMultiset<T>(keep: T -> bool, s: seq<T>)
    ensures forall x :: multiset(Passing(keep, s))[x] == if keep(x) then multiset(s)[x] else 0
    decreases |s|
  {
    if |s| > 0 {
      var init := s[..|s| - 1];
      var last := s[|s| - 1];
      PassingMultiset(keep, init);
      assert s == init + [last];
      assert multiset(s) == multiset(init) + multiset{last};
      if keep(last) {
        assert Passing(keep, s) == Passing(keep, init) + [last];
      }
    }
  }

  /** `Passing` keeps the order of the items it keeps. */
  lemma {:induction false} PassingSubsequence<T>(keep: T -> bool, s: seq<T>)
    ensures IsSubsequence(Passing(keep, s), s)
    decreases |s|
  {
    if |s| > 0 {
      var init := s[..|s| - 1];
      PassingSubsequence(keep, init);
      var rest := Passing(keep, init);
      if keep(s[|s| - 1]) {
        var r := rest + [s[|s| - 1]];
        assert r[..|r| - 1] == rest;
      }
    }
  }

  /** The binding's filter as a predicate on items. */
  function Admitted(ls: ListSource): FeedItem -> bool {
    item => FilterItem(ls, item)
  }

  /** Filtering a sorted list keeps it sorted. */
  lemma {:induction false} PassingSorted(keep: FeedItem -> bool, s: seq<FeedItem>)
    requires SortedDesc(s)
    ensures SortedDesc(Passing(keep, s))
    decreases |s|
  {
    if |s| > 0 {
      var init := s[..|s| - 1];
      assert SortedDesc(init);
      PassingSorted(keep, init);
      PassingMembers(keep, init);
      var rest := Passing(keep, init);
      forall k | 0 <= k < |rest|
        ensures rest[k].pubDate >= s[|s| - 1].pubDate
      {
        var j :| 0 <= j < |init| && init[j] == rest[k];
        assert s[j] == init[j];
      }
    }
  }

  lemma PassingSnoc(keep: FeedItem -> bool, s: seq<FeedItem>, i: nat)
    requires i < |s|
    ensures Passing(keep, s[..i + 1]) == Passing(keep, s[..i]) + (if keep(s[i]) then [s[i]] else [])
  {
    assert s[..i + 1][..i] == s[..i];
  }

  /** A subsequence of a prefix is a subsequence of the whole. */
  lemma {:induction false} SubsequenceOfLonger(a: seq<FeedItem>, b: seq<FeedItem>, i: nat)
    requires i <= |b| && IsSubsequence(a, b[..i])
    ensures IsSubsequence(a, b)
    decreases |b| - i
  {
    if i < |b| {
      assert b[..i + 1][..i] == b[..i];
      assert IsSubsequence(a, b[..i + 1]) by {
        if |a| > 0 {
          assert IsSubsequence(a, b[..i + 1][..i]);
        }
      }
      SubsequenceOfLonger(a, b, i + 1);
    } else {
      assert b[..i] == b;
    }
  }

  lemma PrefixTrans(a: seq<FeedItem>, b: seq<FeedItem>, c: seq<FeedItem>)
    requires a <= b && b <= c
    ensures a <= c
  {
    assert c[..|a|] == c[..|b|][..|a|];
  }

  /** The reference result of `getFilteredItems`: the first `limit` passing items of the prefetch. */
  function FilteredItems(store: Store, ls: ListSource, limit: nat): seq<FeedItem> {
    Truncate(Passing(Admitted(ls), Recent(store, ls.sourceId, 2 * limit)), limit)
  }

  /** Passing items of a longer prefix extend those of a shorter one. */
  lemma {:induction false} PassingMonotone(keep: FeedItem -> bool, s: seq<FeedItem>, i: nat, j: nat)
    requires i <= j <= |s|
    ensures Passing(keep, s[..i]) <= Passing(keep, s[..j])
    decreases j - i
  {
    if i < j {
      PassingMonotone(keep, s, i, j - 1);
      PassingSnoc(keep, s, j - 1);
      var b := Passing(keep, s[..j - 1]);
      PrefixOfAppend(b, if keep(s[j - 1]) then [s[j - 1]] else []);
      PrefixTrans(Passing(keep, s[..i]), b, Passing(keep, s[..j]));
    }
  }

  lemma PrefixOfAppend(a: seq<FeedItem>, x: seq<FeedItem>)
    ensures a <= a + x
  {
    assert (a + x)[..|a|] == a;
  }

  /**
    `getFilteredItems`: the newest `2 * limit` items of the binding's source are read,
    the ones passing the filter are kept in order, and the loop stops once `limit`
    are kept. The result is at most `limit` items, newest first, each from the
    binding's source and passing its filter, in prefetch order.
   */
  method GetFilteredItems(store: Store, ls: ListSource, limit: nat) returns (r: seq<FeedItem>)
    ensures r == FilteredItems(store, ls, limit)
    ensures |r| <= limit
    ensures forall k :: 0 <= k < |r| ==> FilterItem(ls, r[k]) && r[k].sourceId == ls.sourceId
    ensures IsSubsequence(r, Recent(store, ls.sourceId, 2 * limit))
    ensures SortedDesc(r)
  {
    var items := Recent(store, ls.sourceId, 2 * limit);
    var i;
    r, i := TakePassing(Admitted(ls), items, limit);
    FilteredFacts(store, ls, limit, i, r);
  }

  /**
    The loop of `getFilteredItems` over the prefetched items (at most `2 * limit` of
    them): items are taken in order, the accepted ones are kept, and the loop stops
    after the item that brings the kept count to `limit`.
   */
  method TakePassing(keep: FeedItem -> bool, items: seq<FeedItem>, limit: nat) returns (r: seq<FeedItem>, i: nat)
    requires |items| <= 2 * limit
    ensures i <= |items| && r == Passing(keep, items[..i]) && |r| <= limit
    ensures i == |items| || |r| == limit
  {
    r := [];
    i := 0;
    while i < |items|
      invariant 0 <= i <= |items|
      invariant r == Passing(keep, items[..i])
      invariant i < |items| ==> |r| < limit
      invariant |r| <= limit
      decreases |items| - i
    {
      PassingSnoc(keep, items, i);
      if keep(items[i]) {
        r := r + [items[i]];
        if |r| >= limit {
          i := i + 1;
          break;
        }
      }
      i := i + 1;
    }
  }

  /** What the loop of `getFilteredItems` has computed once it stops. */
  lemma FilteredFacts(store: Store, ls: ListSource, limit: nat, i: nat, r: seq<FeedItem>)
    requires var items := Recent(store, ls.sourceId, 2 * limit);
             && i <= |items| && r == Passing(Admitted(ls), items[..i]) && |r| <= limit
             && (i == |items| || |r| == limit)
    ensures r == FilteredItems(store, ls, limit)
    ensures forall k :: 0 <= k < |r| ==> FilterItem(ls, r[k]) && r[k].sourceId == ls.sourceId
    ensures IsSubsequence(r, Recent(store, ls.sourceId, 2 * limit))
    ensures SortedDesc(r)
  {
    var items := Recent(store, ls.sourceId, 2 * limit);
    var keep := Admitted(ls);
    FilteredTail(keep, items, i, r, limit);
    PrefixSubsequence(keep, items, i, r);
    KeptFromSource(keep, items, i, r, ls.sourceId);
    forall k | 0 <= k < |r|
      ensures FilterItem(ls, r[k])
    {
      assert keep(r[k]);
    }
    PassingSorted(keep, items[..i]);
  }

  lemma KeptFromSource(keep: FeedItem -> bool, items: seq<FeedItem>, i: nat, r: seq<FeedItem>, sid: nat)
    requires i <= |items| && r == Passing(keep, items[..i])
    requires forall k :: 0 <= k < |items| ==> items[k].sourceId == sid
    ensures forall k :: 0 <= k < |r| ==> keep(r[k]) && r[k].sourceId == sid
  {
    PassingMembers(keep, items[..i]);
    forall k | 0 <= k < |r|
      ensures r[k].sourceId == sid
    {
      var j :| 0 <= j < i && items[..i][j] == r[k];
      assert items[j] == r[k];
    }
  }

  lemma PrefixSubsequence(keep: FeedItem -> bool, items: seq<FeedItem>, i: nat, r: seq<FeedItem>)
    requires i <= |items| && r == Passing(keep, items[..i])
    ensures IsSubsequence(r, items)
  {
    PassingSubsequence(keep, items[..i]);
    SubsequenceOfLonger(r, items, i);
  }

  lemma FilteredTail(keep: FeedItem -> bool, items: seq<FeedItem>, i: nat, r: seq<FeedItem>, limit: nat)
    requires i <= |items| && r == Passing(keep, items[..i]) && |r| <= limit
    requires SortedDesc(items)
    requires i == |items| || |r| == limit
    ensures r == Truncate(Passing(keep, items), limit)
    ensures SortedDesc(items[..i])
  {
    PassingMonotone(keep, items, i, |items|);
    assert items[..|items|] == items;
  }

  /** Whether a binding belongs to list `listId`: `where list_id = listId`. */
  function OfList(listId: nat): ListSource -> bool {
    (b: ListSource) => b.listId == listId
  }

  /** The bindings of one list, in table order: each binding of the list as often as stored, and nothing else. */
  function BindingsOf(bindings: seq<ListSource>, listId: nat): (r: seq<ListSource>)
    ensures IsSubsequence(r, bindings)
    ensures forall k :: 0 <= k < |r| ==> r[k].listId == listId && r[k] in bindings
    ensures forall k :: 0 <= k < |bindings| && bindings[k].listId == listId ==> bindings[k] in r
  {
    var r := Passing(OfList(listId), bindings);
    PassingMembers(OfList(listId), bindings);
    PassingSubsequence(OfList(listId), bindings);
    r
  }

  /** `BindingsOf` holds each binding of the list as often as the table does, and no other binding. */
  lemma BindingsOfCounts(bindings: seq<ListSource>, listId: nat)
    ensures forall b :: multiset(BindingsOf(bindings, listId))[b] == if b.listId == listId then multiset(bindings)[b] else 0
  {
    PassingMultiset(OfList(listId), bindings);
  }

  /** An item some binding of `bs` lets through from its source. */
  predicate FromSomeBinding(bs: seq<ListSource>, item: FeedItem) {
    exists j :: 0 <= j < |bs| && bs[j].sourceId == item.sourceId && FilterItem(bs[j], item)
  }

  /** The per-binding results of `getFilteredItems`, concatenated in binding order. */
  function Gathered(store: Store, bs: seq<ListSource>, limit: nat): (r: seq<FeedItem>)
    ensures forall k :: 0 <= k < |r| ==> FromSomeBinding(bs, r[k])
    decreases |bs|
  {
    if |bs| == 0 then []
    else
      var front := Gathered(store, bs[..|bs| - 1], limit);
      GatheredStep(store, bs, limit, front);
      front + FilteredItems(store, bs[|bs| - 1], limit)
  }

  lemma GatheredStep(store: Store, bs: seq<ListSource>, limit: nat, front: seq<FeedItem>)
    requires |bs| > 0
    requires forall k :: 0 <= k < |front| ==> FromSomeBinding(bs[..|bs| - 1], front[k])
    ensures var r := front + FilteredItems(store, bs[|bs| - 1], limit);
            forall k :: 0 <= k < |r| ==> FromSomeBinding(bs, r[k])
  {
    var b := bs[|bs| - 1];
    var back := FilteredItems(store, b, limit);
    forall k | 0 <= k < |front|
      ensures FromSomeBinding(bs, front[k])
    {
      MoreBindings(bs, front[k]);
    }
    forall k | 0 <= k < |back|
      ensures FromSomeBinding(bs, back[k])
    {
      FilteredFromBinding(store, b, limit, k);
    }
  }

  /** Every item `getFilteredItems` returns comes from the binding's source and passes its filter. */
  lemma FilteredFromBinding(store: Store, b: ListSource, limit: nat, k: nat)
    requires k < |FilteredItems(store, b, limit)|
    ensures FilteredItems(store, b, limit)[k].sourceId == b.sourceId
    ensures FilterItem(b, FilteredItems(store, b, limit)[k])
  {
    var items := Recent(store, b.sourceId, 2 * limit);
    var passed := Passing(Admitted(b), items);
    PassingMembers(Admitted(b), items);
    assert FilteredItems(store, b, limit)[k] == passed[k];
    assert Admitted(b)(passed[k]);
    var j :| 0 <= j < |items| && items[j] == passed[k];
  }

  lemma MoreBindings(bs: seq<ListSource>, item: FeedItem)
    requires |bs| > 0 && FromSomeBinding(bs[..|bs| - 1], item)
    ensures FromSomeBinding(bs, item)
  {
    var init := bs[..|bs| - 1];
    var j :| 0 <= j < |init| && init[j].sourceId == item.sourceId && FilterItem(init[j], item);
    assert bs[j] == init[j];
  }

  /** Items of one date in a prefix of `b` are a prefix of that date's items in `b`. */
  lemma {:induction false} WithDatePrefix(a: seq<FeedItem>, b: seq<FeedItem>, d: int)
    requires a <= b
    ensures WithDate(a, d) <= WithDate(b, d)
    decreases |a|
  {
    if |a| > 0 {
      assert a[1..] <= b[1..];
      WithDatePrefix(a[1..], b[1..], d);
    }
  }

  /**
    `getListItems`: the filtered items of every binding of the list, concatenated in
    binding order, sorted newest first with equal dates kept in concatenation order,
    and cut to `limit`.
   */
  method GetListItems(store: Store, bindings: seq<ListSource>, listId: nat, limit: nat) returns (r: seq<FeedItem>)
    ensures r == Truncate(SortDesc(Gathered(store, BindingsOf(bindings, listId), limit)), limit)
    ensures |r| <= limit && SortedDesc(r)
    ensures forall k :: 0 <= k < |r| ==> FromSomeBinding(BindingsOf(bindings, listId), r[k])
    ensures forall d :: WithDate(r, d) <= WithDate(Gathered(store, BindingsOf(bindings, listId), limit), d)
  {
    var bs := BindingsOf(bindings, listId);
    var all := [];
    var i := 0;
    while i < |bs|
      invariant 0 <= i <= |bs|
      invariant all == Gathered(store, bs[..i], limit)
    {
      var items := GetFilteredItems(store, bs[i], limit);
      GatheredSnoc(store, bs, i, limit);
      all := all + items;
      i := i + 1;
    }
    assert bs[..|bs|] == bs;
    r := Truncate(SortDesc(all), limit);
    MergedFacts(bs, all, r, limit);
  }

  lemma GatheredSnoc(store: Store, bs: seq<ListSource>, i: nat, limit: nat)
    requires i < |bs|
    ensures Gathered(store, bs[..i + 1], limit) == Gathered(store, bs[..i], limit) + FilteredItems(store, bs[i], limit)
  {
    assert bs[..i + 1][..i] == bs[..i];
  }

  lemma MergedFacts(bs: seq<ListSource>, all: seq<FeedItem>, r: seq<FeedItem>, limit: nat)
    requires forall k :: 0 <= k < |all| ==> FromSomeBinding(bs, all[k])
    requires r == Truncate(SortDesc(all), limit)
    ensures SortedDesc(r)
    ensures forall k :: 0 <= k < |r| ==> FromSomeBinding(bs, r[k])
    ensures forall d :: WithDate(r, d) <= WithDate(all, d)
  {
    var sorted := SortDesc(all);
    SortedPrefix(sorted, r);
    forall d
      ensures WithDate(r, d) <= WithDate(all, d)
    {
      WithDatePrefix(r, sorted, d);
    }
    forall k | 0 <= k < |r|
      ensures FromSomeBinding(bs, r[k])
    {
      assert r[k] == sorted[k];
      assert sorted[k] in multiset(all);
      var j :| 0 <= j < |all| && all[j] == sorted[k];
    }
  }

  lemma SortedPrefix(s: seq<FeedItem>, p: seq<FeedItem>)
    requires SortedDesc(s) && p <= s
    ensures SortedDesc(p)
  {
    forall i, j | 0 <= i < j < |p|
      ensures p[i].pubDate >= p[j].pubDate
    {
      assert p[i] == s[i] && p[j] == s[j];
    }
  }
}

=== FILE: decimal.dfy ===
/** PHP's rendering of a non-negative integer in string concatenation. */
module Decimal {
  import opened PhpStrings

  function DigitChar(d: nat): char
    requires d < 10
  {
    ('0' as int + d) as char
  }

  /** `(string) $n` for `$n >= 0`: decimal digits, no leading zero. */
  function NatToString(n: nat): (r: String)
    ensures 1 <= |r|
    ensures n < 10 <==> |r| == 1
    ensures forall i :: 0 <= i < |r| ==> '0' <= r[i] <= '9'
  {
    if n < 10 then [DigitChar(n)] else NatToString(n / 10) + [DigitChar(n % 10)]
  }

  /** Distinct numbers render as distinct strings. */
  lemma {:induction false} NatToStringInjective(a: nat, b: nat)
    requires NatToString(a) == NatToString(b)
    ensures a == b
    decreases a
  {
    if a >= 10 && b >= 10 {
      var sa := NatToString(a);
      var sb := NatToString(b);
      assert sa[|sa| - 1] == sb[|sb| - 1];
      assert sa[..|sa| - 1] == NatToString(a / 10);
      assert sb[..|sb| - 1] == NatToString(b / 10);
      NatToStringInjective(a / 10, b / 10);
    }
  }
}

=== FILE: entries.dfy ===
/**
  A feed entry as the feed reader library hands it to the ingestion loop.
  Every accessor the loop calls (`getId`, `getLink`, `getTitle`, `getAuthors`,
  `getCategories`, `getDateModified`, `getDateCreated`, `getContent`,
  `getDescription`, `getEnclosure`) becomes a field; PHP's `null` is `None`.
 */
module Entries {
  import opened Wrappers
  import opened PhpStrings

  /** Attributes of one XML element; `getAttribute` of a missing attribute reads as "". */
  type Attributes = map<String, String>

  function Attr(n: Attributes, name: String): String {
    if name in n then n[name] else ""
  }

  /** The enclosure object: its `url` and `type` properties. */
  datatype Enclosure = Enclosure(url: Option<String>, mime: Option<String>)

  /** The three shapes an author can take in the reader's author list. */
  datatype AuthorDatum =
    | AuthorObject(name: Option<String>, email: Option<String>)
    | AuthorArray(name: Option<String>, email: Option<String>)
    | AuthorText(text: String)

  /** The three shapes a category can take in the reader's category list. */
  datatype CategoryDatum =
    | CategoryObject(labelText: Option<String>, term: Option<String>)
    | CategoryArray(labelText: Option<String>, term: Option<String>)
    | CategoryText(text: String)

  /**
    One parsed entry. `mediaContent` and `mediaThumbnails` are the entry's own
    `media:content` and `media:thumbnail` elements in document order.
   */
  datatype Entry = Entry(
    id: Option<String>,
    link: Option<String>,
    title: Option<String>,
    authors: seq<AuthorDatum>,
    categories: seq<CategoryDatum>,
    dateModified: Option<int>,
    dateCreated: Option<int>,
    content: Option<String>,
    description: Option<String>,
    enclosure: Option<Enclosure>,
    mediaContent: seq<Attributes>,
    mediaThumbnails: seq<Attributes>)
}

=== FILE: explode.dfy ===
/**
  `explode`, `implode` and the comma-separated lists built on them: the
  filter strings of a list binding and the stored category string of an item.
 */
module Explode {
  import opened Wrappers
  import opened PhpStrings

  /** Position of the first `d` in `s`. */
  function IndexOf(s: String, d: char): (i: nat)
    requires d in s
    ensures i < |s| && s[i] == d && d !in s[..i]
  {
    if s[0] == d then 0
    else
      var j := IndexOf(s[1..], d);
      assert s[..j + 1] == [s[0]] + s[1..][..j];
      j + 1
  }

  /** The first delimiter of `p + [d] + rest` is the one after `p` when `p` has none. */
  lemma {:induction false} IndexOfAfterPrefix(p: String, d: char, rest: String)
    requires d !in p
    ensures IndexOf(p + [d] + rest, d) == |p|
    decreases |p|
  {
    if |p| > 0 {
      var s := p + [d] + rest;
      assert s[1..] == p[1..] + [d] + rest;
      IndexOfAfterPrefix(p[1..], d, rest);
    }
  }

  lemma SplitUnfold(s: String, d: char)
    requires d in s
    ensures Split(s, d) == [s[..IndexOf(s, d)]] + Split(s[IndexOf(s, d) + 1..], d)
  {
  }

  /** `explode($d, $s)` for a one-character delimiter: the pieces between delimiters, in order. */
  function Split(s: String, d: char): (parts: seq<String>)
    ensures |parts| >= 1
    ensures forall k :: 0 <= k < |parts| ==> d !in parts[k]
    decreases |s|
  {
    if d in s then
      var i := IndexOf(s, d);
      [s[..i]] + Split(s[i + 1..], d)
    else [s]
  }

  /** `implode($sep, $parts)`. */
  function Join(parts: seq<String>, sep: String): String {
    if |parts| == 0 then []
    else if |parts| == 1 then parts[0]
    else parts[0] + sep + Join(parts[1..], sep)
  }

  /** Joining the pieces back with the delimiter restores the exploded string. */
  lemma {:induction false} JoinSplit(s: String, d: char)
    ensures Join(Split(s, d), [d]) == s
    decreases |s|
  {
    if d in s {
      var i := IndexOf(s, d);
      var rest := Split(s[i + 1..], d);
      JoinSplit(s[i + 1..], d);
      assert Split(s, d) == [s[..i]] + rest;
      assert Split(s, d)[1..] == rest;
      assert s == s[..i] + [d] + s[i + 1..];
    }
  }

  /** Exploding a join of delimiter-free pieces returns the pieces. */
  lemma {:induction false} SplitJoin(parts: seq<String>, d: char)
    requires |parts| >= 1
    requires forall k :: 0 <= k < |parts| ==> d !in parts[k]
    ensures Split(Join(parts, [d]), d) == parts
    decreases |parts|
  {
    if |parts| > 1 {
      var p := parts[0];
      var tail := Join(parts[1..], [d]);
      var s := p + [d] + tail;
      assert Join(parts, [d]) == s;
      assert s[|p|] == d;
      IndexOfAfterPrefix(p, d, tail);
      SplitUnfold(s, d);
      assert s[..|p|] == p;
      assert s[|p| + 1..] == tail;
      SplitJoin(parts[1..], d);
      assert parts == [p] + parts[1..];
    }
  }

  /** `explode` yields one more piece than there are delimiters. */
  lemma {:induction false} SplitCount(s: String, d: char)
    ensures |Split(s, d)| == multiset(s)[d] + 1
    decreases |s|
  {
    if d in s {
      var i := IndexOf(s, d);
      SplitCount(s[i + 1..], d);
      assert s == s[..i] + [d] + s[i + 1..];
      assert multiset(s) == multiset(s[..i]) + multiset{d} + multiset(s[i + 1..]);
      assert multiset(s[..i])[d] == 0;
    } else {
      assert multiset(s)[d] == 0;
    }
  }

  /** A piece of `s` holds no character that `s` lacks. */
  lemma ContainedNoNewChar(s: String, sub: String, c: char)
    requires Contains(s, sub) && c !in s
    ensures c !in sub
  {
    if c in sub {
      MissingCharNotContained(s, sub, c);
    }
  }

  /** `array_map('trim', $parts)`. */
  function TrimAll(parts: seq<String>): (r: seq<String>)
    ensures |r| == |parts|
    ensures forall k :: 0 <= k < |r| ==> r[k] == Trim(parts[k])
  {
    seq(|parts|, k requires 0 <= k < |parts| => Trim(parts[k]))
  }

  /** `array_map('trim', explode(',', $s))`. */
  function Pieces(s: String): (r: seq<String>)
    ensures |r| == multiset(s)[','] + 1
    ensures forall k :: 0 <= k < |r| ==> IsTrimmed(r[k], PhpWhitespace) && ',' !in r[k]
    ensures |r| == |Split(s, ',')| && forall k :: 0 <= k < |r| ==> r[k] == Trim(Split(s, ',')[k])
  {
    var parts := Split(s, ',');
    SplitCount(s, ',');
    forall k | 0 <= k < |parts|
      ensures ',' !in Trim(parts[k])
    {
      ContainedNoNewChar(parts[k], Trim(parts[k]), ',');
    }
    TrimAll(parts)
  }

  /**
    The comma list behind `ListSource::get*Array` and `FeedItem::getCategoriesArray`:
    `empty($s) ? [] : array_map('trim', explode(',', $s))`. A null, "" or "0" string
    gives no terms; otherwise term `k` is the `k`-th comma-separated piece, trimmed.
   */
  function Terms(o: Option<String>): (r: seq<String>)
    ensures r == [] <==> Empty(o)
    ensures !Empty(o) ==> |r| == multiset(o.value)[','] + 1
    ensures forall k :: 0 <= k < |r| ==> IsTrimmed(r[k], PhpWhitespace) && ',' !in r[k]
    ensures !Empty(o) ==> |r| == |Split(o.value, ',')| && forall k :: 0 <= k < |r| ==> r[k] == Trim(Split(o.value, ',')[k])
  {
    if Empty(o) then [] else Pieces(o.value)
  }

  /**
    Round trip with the writers that store a list as `implode(',', $labels)`: labels that are
    trimmed and comma-free, joined into a string PHP does not consider empty, split back into
    exactly the same labels.
   */
  lemma TermsOfJoin(labels: seq<String>)
    requires forall k :: 0 <= k < |labels| ==> IsTrimmed(labels[k], PhpWhitespace) && ',' !in labels[k]
    requires Truthy(Join(labels, [',']))
    ensures Terms(Some(Join(labels, [',']))) == labels
  {
    var j := Join(labels, [',']);
    SplitJoin(labels, ',');
    forall k | 0 <= k < |labels|
      ensures Trim(labels[k]) == labels[k]
    {
      TrimWithTrimmed(labels[k], PhpWhitespace);
    }
    assert TrimAll(labels) == labels;
    assert Pieces(j) == TrimAll(Split(j, ','));
  }

  function Last<T>(s: seq<T>): T
    requires |s| > 0
  {
    s[|s| - 1]
  }

  /** A string ending in the delimiter explodes into a piece list ending with an empty piece (the stray-comma case). */
  lemma {:induction false} SplitTrailingDelimiter(s: String, d: char)
    requires |s| > 0 && s[|s| - 1] == d
    ensures Last(Split(s, d)) == []
    decreases |s|
  {
    var i := IndexOf(s, d);
    var rest := s[i + 1..];
    var parts := Split(rest, d);
    assert Split(s, d) == [s[..i]] + parts by {
      SplitUnfold(s, d);
    }
    LastOfAppend([s[..i]], parts);
    if i < |s| - 1 {
      assert rest[|rest| - 1] == d;
      SplitTrailingDelimiter(rest, d);
    } else {
      assert rest == [];
    }
  }

  lemma LastOfAppend<T>(a: seq<T>, b: seq<T>)
    requires |b| >= 1
    ensures Last(a + b) == Last(b)
  {
  }

  /** A string ending in a comma is neither "" nor "0". */
  lemma CommaEndedTruthy(s: String)
    requires |s| > 0 && s[|s| - 1] == ','
    ensures Truthy(s)
  {
    assert |"0"| == 1 && "0"[0] == '0';
  }

  /** A filter string with a trailing comma yields the empty term last. */
  lemma TrailingCommaEmptyTerm(t: String)
    ensures |Terms(Some(t + [',']))| > 0 && Last(Terms(Some(t + [',']))) == []
  {
    var s := t + [','];
    assert s[|s| - 1] == ',';
    CommaEndedTruthy(s);
    SplitTrailingDelimiter(s, ',');
    LastTermOfEmptyPiece(s);
  }

  /** When the last comma piece is empty, so is the last term. */
  lemma LastTermOfEmptyPiece(s: String)
    requires Truthy(s) && Last(Split(s, ',')) == []
    ensures |Terms(Some(s))| > 0 && Last(Terms(Some(s))) == []
  {
    var r := Terms(Some(s));
    assert r[|r| - 1] == Trim(Split(s, ',')[|r| - 1]);
    TrimOfEmpty();
  }

  lemma TrimOfEmpty()
    ensures Trim([]) == []
  {
    var r := Trim([]);
    assert Contains([], r);
  }
}

=== FILE: facets.dfy ===
/**
  The author and category pick lists of a source (`getSourceAuthors`,
  `getSourceCategories`): every stored value is split at commas and trimmed, the
  pieces PHP finds falsy are dropped, and each remaining name is kept once, at
  its first occurrence in table order.
 */
module Facets {
  import opened Wrappers
  import opened PhpStrings
  import opened Explode
  import opened FeedItems
  import opened Entries
  import opened Ingestion

  /** The non-null, non-empty values of one column for one source, in table order. */
  function Column(store: Store, sid: nat, column: FeedItem -> Option<String>): (r: seq<String>)
    ensures forall v :: v in r <==> exists k :: 0 <= k < |store| && store[k].sourceId == sid
                                              && column(store[k]) == Some(v) && v != ""
  {
    if |store| == 0 then []
    else
      var rest := Column(store[1..], sid, column);
      assert forall k :: 1 <= k < |store| ==> store[k] == store[1..][k - 1];
      var c := column(store[0]);
      if store[0].sourceId == sid && c.Some? && c.value != "" then [c.value] + rest else rest
  }

  /** `array_merge` of `array_map('trim', explode(',', $v))` over the values. */
  function Flatten(values: seq<String>): (r: seq<String>)
    ensures forall k :: 0 <= k < |r| ==> IsTrimmed(r[k], PhpWhitespace) && ',' !in r[k]
  {
    if |values| == 0 then []
    else
      var p := Pieces(values[0]);
      var rest := Flatten(values[1..]);
      PiecesAppend(p, rest);
      p + rest
  }

  lemma PiecesAppend(p: seq<String>, rest: seq<String>)
    requires forall k :: 0 <= k < |p| ==> IsTrimmed(p[k], PhpWhitespace) && ',' !in p[k]
    requires forall k :: 0 <= k < |rest| ==> IsTrimmed(rest[k], PhpWhitespace) && ',' !in rest[k]
    ensures forall k :: 0 <= k < |p + rest| ==> IsTrimmed((p + rest)[k], PhpWhitespace) && ',' !in (p + rest)[k]
  {
    forall k | 0 <= k < |p + rest|
      ensures IsTrimmed((p + rest)[k], PhpWhitespace) && ',' !in (p + rest)[k]
    {
      if k >= |p| {
        assert (p + rest)[k] == rest[k - |p|];
      }
    }
  }

  /** A name is flattened out of the values exactly when it is a piece of one of them. */
  lemma {:induction false} FlattenMembers(values: seq<String>, x: String)
    ensures x in Flatten(values) <==> exists k :: 0 <= k < |values| && x in Pieces(values[k])
    decreases |values|
  {
    if |values| > 0 {
      FlattenMembers(values[1..], x);
      assert Flatten(values) == Pieces(values[0]) + Flatten(values[1..]);
      if exists k :: 0 <= k < |values| && x in Pieces(values[k]) {
        var k :| 0 <= k < |values| && x in Pieces(values[k]);
        if k > 0 {
          assert values[1..][k - 1] == values[k];
        }
      }
      if exists k :: 0 <= k < |values| - 1 && x in Pieces(values[1..][k]) {
        var k :| 0 <= k < |values| - 1 && x in Pieces(values[1..][k]);
        assert values[k + 1] == values[1..][k];
      }
    }
  }

  /** `array_filter`: the names PHP finds truthy, in order. */
  function KeepTruthy(s: seq<String>): (r: seq<String>)
    ensures forall x :: x in r <==> x in s && Truthy(x)
    ensures forall k :: 0 <= k < |r| ==> r[k] in s
  {
    if |s| == 0 then []
    else
      var rest := KeepTruthy(s[1..]);
      assert forall k :: 1 <= k < |s| ==> s[k] == s[1..][k - 1];
      if Truthy(s[0]) then [s[0]] + rest else rest
  }

  predicate Distinct(s: seq<String>) {
    forall i, j :: 0 <= i < j < |s| ==> s[i] != s[j]
  }

  /** `array_unique`: each value once, at its first occurrence. */
  function Dedup(s: seq<String>): (r: seq<String>)
    ensures forall x :: x in r <==> x in s
    ensures Distinct(r)
    ensures |r| <= |s|
  {
    if |s| == 0 then []
    else
      var init := s[..|s| - 1];
      var d := Dedup(init);
      assert s == init + [s[|s| - 1]];
      if s[|s| - 1] in init then d else d + [s[|s| - 1]]
  }

  /**
    Values enter the result in the order of their first occurrence: the result for
    a prefix of `s` is a prefix of the result for `s`.
   */
  lemma {:induction false} DedupPrefix(s: seq<String>, i: nat)
    requires i <= |s|
    ensures Dedup(s[..i]) <= Dedup(s)
    decreases |s|
  {
    if i < |s| {
      var init := s[..|s| - 1];
      DedupPrefix(init, i);
      assert init[..i] == s[..i];
      var a, b, c := Dedup(s[..i]), Dedup(init), Dedup(s);
      assert b <= c;
      assert c[..|a|] == c[..|b|][..|a|];
    } else {
      assert s[..i] == s;
    }
  }

  /** A list that repeats nothing is its own `array_unique`. */
  lemma {:induction false} DedupDistinct(s: seq<String>)
    requires Distinct(s)
    ensures Dedup(s) == s
  {
    if |s| > 0 {
      var init := s[..|s| - 1];
      assert Distinct(init);
      DedupDistinct(init);
      assert s[|s| - 1] !in init;
      assert s == init + [s[|s| - 1]];
    }
  }

  /** `x` is a piece of a non-empty value that the column holds for the source. */
  predicate PieceOf(store: Store, sid: nat, column: FeedItem -> Option<String>, x: String) {
    exists k :: 0 <= k < |store| && store[k].sourceId == sid && column(store[k]).Some?
                && column(store[k]).value != "" && x in Pieces(column(store[k]).value)
  }

  /** A piece is flattened out of the column exactly when it is a piece of one of its values. */
  lemma FlattenedColumn(store: Store, sid: nat, column: FeedItem -> Option<String>, x: String)
    ensures x in Flatten(Column(store, sid, column)) <==> PieceOf(store, sid, column, x)
  {
    var values := Column(store, sid, column);
    FlattenMembers(values, x);
    if x in Flatten(values) {
      var j :| 0 <= j < |values| && x in Pieces(values[j]);
      assert values[j] in values;
    }
    if PieceOf(store, sid, column, x) {
      var k :| 0 <= k < |store| && store[k].sourceId == sid && column(store[k]).Some?
               && column(store[k]).value != "" && x in Pieces(column(store[k]).value);
      var v := column(store[k]).value;
      assert v in values;
      var j :| 0 <= j < |values| && values[j] == v;
    }
  }

  /**
    The pick list of one column: distinct, truthy, trimmed, comma-free names, and a
    name is listed exactly when it is truthy and a piece of some stored value of the source.
   */
  function Facet(store: Store, sid: nat, column: FeedItem -> Option<String>): (r: seq<String>)
    ensures Distinct(r)
    ensures forall k :: 0 <= k < |r| ==> Truthy(r[k]) && IsTrimmed(r[k], PhpWhitespace) && ',' !in r[k]
    ensures forall x :: x in r <==> Truthy(x) && PieceOf(store, sid, column, x)
  {
    var pieces := Flatten(Column(store, sid, column));
    FacetMembers(store, sid, column, pieces);
    FacetShape(pieces);
    Dedup(KeepTruthy(pieces))
  }

  lemma FacetMembers(store: Store, sid: nat, column: FeedItem -> Option<String>, pieces: seq<String>)
    requires pieces == Flatten(Column(store, sid, column))
    ensures forall x :: x in Dedup(KeepTruthy(pieces)) <==> Truthy(x) && PieceOf(store, sid, column, x)
  {
    forall x
      ensures x in Dedup(KeepTruthy(pieces)) <==> Truthy(x) && PieceOf(store, sid, column, x)
    {
      FlattenedColumn(store, sid, column, x);
    }
  }

  lemma FacetShape(pieces: seq<String>)
    requires forall k :: 0 <= k < |pieces| ==> IsTrimmed(pieces[k], PhpWhitespace) && ',' !in pieces[k]
    ensures var r := Dedup(KeepTruthy(pieces));
            forall k :: 0 <= k < |r| ==> Truthy(r[k]) && IsTrimmed(r[k], PhpWhitespace) && ',' !in r[k]
  {
    var r := Dedup(KeepTruthy(pieces));
    forall k | 0 <= k < |r|
      ensures Truthy(r[k]) && IsTrimmed(r[k], PhpWhitespace) && ',' !in r[k]
    {
      assert r[k] in KeepTruthy(pieces);
      var j :| 0 <= j < |pieces| && pieces[j] == r[k];
    }
  }

  function AuthorColumn(item: FeedItem): Option<String> { item.author }

  function CategoriesColumn(item: FeedItem): Option<String> { item.categories }

  /** `getSourceAuthors`. */
  function SourceAuthors(store: Store, sid: nat): seq<String> {
    Facet(store, sid, AuthorColumn)
  }

  /** `getSourceCategories`. */
  function SourceCategories(store: Store, sid: nat): seq<String> {
    Facet(store, sid, CategoriesColumn)
  }

  /**
    The categories an item lists are offered for its source: every label of
    `getCategoriesArray` that PHP finds truthy appears in `getSourceCategories`.
   */
  lemma ItemCategoriesOffered(store: Store, k: nat, name: String)
    requires k < |store|
    requires name in CategoriesArray(store[k]) && Truthy(name)
    ensures name in SourceCategories(store, store[k].sourceId)
  {
    var v := store[k].categories.value;
    assert CategoriesColumn(store[k]) == Some(v);
    assert v != "";
  }

  /** Each name with a blank in front: the pieces that follow a comma in a `", "` join. */
  function Blanked(names: seq<String>): (r: seq<String>)
    ensures |r| == |names| && forall k :: 0 <= k < |r| ==> r[k] == [' '] + names[k]
  {
    seq(|names|, k requires 0 <= k < |names| => [' '] + names[k])
  }

  lemma {:induction false} CommaBlankJoin(t: seq<String>)
    requires |t| >= 1
    ensures ", " + Join(t, ", ") == [','] + Join(Blanked(t), [','])
    decreases |t|
  {
    if |t| >= 2 {
      CommaBlankJoin(t[1..]);
      assert Blanked(t)[1..] == Blanked(t[1..]);
      calc {
        ", " + Join(t, ", ");
        ", " + (t[0] + ", " + Join(t[1..], ", "));
        [','] + ([' '] + t[0]) + (", " + Join(t[1..], ", "));
        [','] + ([' '] + t[0]) + ([','] + Join(Blanked(t[1..]), [',']));
        [','] + (Blanked(t)[0] + [','] + Join(Blanked(t)[1..], [',']));
        [','] + Join(Blanked(t), [',']);
      }
    } else {
      assert Blanked(t) == [[' '] + t[0]];
    }
  }

  /**
    Round trip with the author writer, which stores `implode(', ', $names)`: trimmed,
    comma-free names read back, through the split-and-trim of the pick list, unchanged.
   */
  lemma AuthorPiecesOfJoin(names: seq<String>)
    requires |names| >= 1
    requires forall k :: 0 <= k < |names| ==> IsTrimmed(names[k], PhpWhitespace) && ',' !in names[k]
    ensures Pieces(Join(names, ", ")) == names
  {
    var parts := [names[0]] + Blanked(names[1..]);
    JoinAsCommaJoin(names);
    PartsCommaFree(names);
    SplitJoin(parts, ',');
    TrimBlanked(names);
    assert Pieces(Join(parts, [','])) == TrimAll(parts);
  }

  lemma PartsCommaFree(names: seq<String>)
    requires |names| >= 1
    requires forall k :: 0 <= k < |names| ==> ',' !in names[k]
    ensures forall k :: 0 <= k < |names| ==> ',' !in ([names[0]] + Blanked(names[1..]))[k]
  {
    var parts := [names[0]] + Blanked(names[1..]);
    forall k | 0 <= k < |names|
      ensures ',' !in parts[k]
    {
      if k > 0 {
        assert parts[k] == [' '] + names[1..][k - 1];
        assert names[1..][k - 1] == names[k];
      }
    }
  }

  lemma JoinAsCommaJoin(names: seq<String>)
    requires |names| >= 1
    ensures Join(names, ", ") == Join([names[0]] + Blanked(names[1..]), [','])
  {
    if |names| >= 2 {
      CommaBlankJoin(names[1..]);
      JoinFront(names[0], names[1..], Blanked(names[1..]));
      assert Join(names, ", ") == names[0] + ", " + Join(names[1..], ", ");
    } else {
      assert [names[0]] + Blanked(names[1..]) == [names[0]];
    }
  }

  lemma JoinFront(a: String, rest: seq<String>, tail: seq<String>)
    requires |tail| >= 1
    requires ", " + Join(rest, ", ") == [','] + Join(tail, [','])
    ensures a + ", " + Join(rest, ", ") == Join([a] + tail, [','])
  {
    var j := Join(rest, ", ");
    var jt := Join(tail, [',']);
    assert ([a] + tail)[1..] == tail;
    assert Join([a] + tail, [',']) == a + [','] + jt;
    calc {
      a + ", " + j;
      a + (", " + j);
      a + ([','] + jt);
      a + [','] + jt;
    }
  }

  lemma TrimBlanked(names: seq<String>)
    requires |names| >= 1
    requires forall k :: 0 <= k < |names| ==> IsTrimmed(names[k], PhpWhitespace)
    ensures TrimAll([names[0]] + Blanked(names[1..])) == names
  {
    var r := TrimAll([names[0]] + Blanked(names[1..]));
    forall k | 0 <= k < |names|
      ensures r[k] == names[k]
    {
      TrimPart(names, k);
    }
  }

  lemma TrimPart(names: seq<String>, k: nat)
    requires k < |names|
    requires IsTrimmed(names[k], PhpWhitespace)
    ensures Trim(([names[0]] + Blanked(names[1..]))[k]) == names[k]
  {
    var parts := [names[0]] + Blanked(names[1..]);
    if k == 0 {
      TrimWithTrimmed(names[0], PhpWhitespace);
    } else {
      assert parts[k] == Blanked(names[1..])[k - 1];
      assert names[1..][k - 1] == names[k];
      TrimLeadingBlank(names[k]);
    }
  }

  /**
    Every author name an entry contributes, when the names are trimmed and comma-free
    and their join fits the column, is offered by `getSourceAuthors` once the entry's
    row is stored.
   */
  lemma AuthorsOffered(store: Store, k: nat, e: Entry, env: Env, name: String)
    requires k < |store| && store[k] == ItemFor(store[k].sourceId, e, env)
    requires var ns := AuthorNames(e); forall i :: 0 <= i < |ns| ==> IsTrimmed(ns[i], PhpWhitespace) && ',' !in ns[i]
    requires |Join(AuthorNames(e), ", ")| <= AuthorMax
    requires name in AuthorNames(e)
    ensures name in SourceAuthors(store, store[k].sourceId)
  {
    var ns := AuthorNames(e);
    JoinTruthy(ns, ", ");
    var v := Join(ns, ", ");
    assert store[k].author == Some(v);
    AuthorPiecesOfJoin(ns);
    assert AuthorColumn(store[k]) == Some(v);
  }
}

=== FILE: feed_items.dfy ===
/** The stored feed item and its category accessor. */
module FeedItems {
  import opened Wrappers
  import opened PhpStrings
  import opened Explode

  /** One row of `feed_items`; `pubDate` is a timestamp. */
  datatype FeedItem = FeedItem(
    sourceId: nat,
    guid: String,
    title: String,
    link: String,
    content: Option<String>,
    author: Option<String>,
    categories: Option<String>,
    imageUrl: Option<String>,
    pubDate: int)

  /** Column widths of `feed_items` and the length the ingestion loop cuts `image_url` to. */
  const GuidMax: nat := 500
  const TitleMax: nat := 500
  const LinkMax: nat := 500
  const AuthorMax: nat := 255
  const CategoriesMax: nat := 500
  const ImageUrlMax: nat := 1000

  /** Every string column fits its width. */
  predicate WithinColumns(item: FeedItem) {
    && |item.guid| <= GuidMax
    && |item.title| <= TitleMax
    && |item.link| <= LinkMax
    && (item.author.Some? ==> |item.author.value| <= AuthorMax)
    && (item.categories.Some? ==> |item.categories.value| <= CategoriesMax)
    && (item.imageUrl.Some? ==> |item.imageUrl.value| <= ImageUrlMax)
  }

  /**
    `FeedItem::getCategoriesArray`: no labels for a null, "" or "0" string; otherwise
    label `k` is the `k`-th comma-separated piece, trimmed.
   */
  function CategoriesArray(item: FeedItem): (labels: seq<String>)
    ensures labels == [] <==> Empty(item.categories)
    ensures !Empty(item.categories) ==> |labels| == multiset(item.categories.value)[','] + 1
    ensures forall k :: 0 <= k < |labels| ==> IsTrimmed(labels[k], PhpWhitespace) && ',' !in labels[k]
    ensures !Empty(item.categories) ==> |labels| == |Split(item.categories.value, ',')|
    ensures !Empty(item.categories) ==> forall k :: 0 <= k < |labels| ==> labels[k] == Trim(Split(item.categories.value, ',')[k])
  {
    Terms(item.categories)
  }

  /**
    Round trip with the ingestion writer, which stores `substr(implode(',', $labels), 0, 500)`:
    trimmed, comma-free labels whose join fits the column and is not "" or "0" read back unchanged.
   */
  lemma CategoriesRoundTrip(item: FeedItem, labels: seq<String>)
    requires forall k :: 0 <= k < |labels| ==> IsTrimmed(labels[k], PhpWhitespace) && ',' !in labels[k]
    requires Truthy(Join(labels, [','])) && |Join(labels, [','])| <= CategoriesMax
    requires item.categories == Some(Truncate(Join(labels, [',']), CategoriesMax))
    ensures CategoriesArray(item) == labels
  {
    TermsOfJoin(labels);
  }
}

=== FILE: images.dfy ===
/**
  The image heuristics of the ingestion loop: a URL acceptance test and a fixed
  priority chain over enclosure, `media:content`, `media:thumbnail` and the
  `<img>` tags of the body and of the description. The `<img src>` scan itself
  (a regular expression) is the parameter `scan`: it maps an HTML string to the
  `src` values it finds, in document order.
 */
module Images {
  import opened Wrappers
  import opened PhpStrings
  import opened Entries

  /** Substrings that mark tracking pixels and beacons; the path patterns include their slashes. */
  const SkipPatterns: seq<String> := [
    "/1x1/", "/pixel/", "/tracking/", "/beacon/",
    "/spacer/", "/blank/", "/clear/", "/transparent/",
    "feedburner.com", "feedsportal.com", "statcounter.com",
    "google-analytics.com", "doubleclick.net"
  ]

  predicate IsHttpUrl(url: String) {
    StartsWith(url, "http://") || StartsWith(url, "https://")
  }

  /**
    `isValidImageUrl`: no skip pattern occurs in the lower-cased URL, and the URL
    starts, case-sensitively, with "http://" or "https://".
   */
  function IsValidImageUrl(url: String): (ok: bool)
    ensures ok <==> (forall k :: 0 <= k < |SkipPatterns| ==> !IContains(url, SkipPatterns[k])) && IsHttpUrl(url)
  {
    !ContainsAny(url, SkipPatterns) && IsHttpUrl(url)
  }

  /** A URL naming a known analytics host is never accepted, whatever else it holds. */
  lemma AnalyticsUrlRejected(url: String)
    requires Contains(Lower(url), "google-analytics.com")
    ensures !IsValidImageUrl(url)
  {
    var p := SkipPatterns[11];
    assert p == "google-analytics.com";
    LowerNoUpper(p);
  }

  /** An accepted URL is an http(s) URL; "HTTP://" in capitals is refused. */
  lemma ValidIsHttp(url: String)
    requires IsValidImageUrl(url)
    ensures |url| >= 7 && url[..4] == "http"
    ensures url[..7] == "http://" || (|url| >= 8 && url[..8] == "https://")
  {
  }

  /**
    For each skip pattern, a position and the lower-case character found there: a
    URL without that character cannot contain the pattern.
   */
  const WitnessIndex: seq<nat> := [1, 3, 2, 1, 4, 1, 1, 2, 0, 0, 4, 14, 0]
  const PatternWitness: seq<char> := ['1', 'x', 'r', 'b', 'c', 'b', 'c', 'r', 'f', 'f', 'c', 'c', 'd']

  lemma WitnessesInPatterns(k: nat)
    requires k < |SkipPatterns|
    ensures |PatternWitness| == |WitnessIndex| == |SkipPatterns|
    ensures WitnessIndex[k] < |SkipPatterns[k]| && Lower(SkipPatterns[k])[WitnessIndex[k]] == PatternWitness[k]
  {
  }

  /** A lower-case http URL that avoids the witness characters is accepted. */
  lemma ValidWithoutWitnesses(url: String)
    requires !HasUpper(url) && IsHttpUrl(url)
    requires forall k :: 0 <= k < |PatternWitness| ==> PatternWitness[k] !in url
    ensures IsValidImageUrl(url)
  {
    LowerNoUpper(url);
    forall k | 0 <= k < |SkipPatterns|
      ensures !IContains(url, SkipPatterns[k])
    {
      WitnessesInPatterns(k);
      var p := Lower(SkipPatterns[k]);
      assert PatternWitness[k] == p[WitnessIndex[k]];
      MissingCharNotContained(url, p, PatternWitness[k]);
    }
  }

  /** `extractFirstImageFromHtml`: the first accepted `src`, in document order. */
  function FirstValidImage(srcs: seq<String>): (r: Option<String>)
    ensures r.Some? ==> IsValidImageUrl(r.value)
    ensures r.Some? ==> exists k :: 0 <= k < |srcs| && srcs[k] == r.value
                          && forall j :: 0 <= j < k ==> !IsValidImageUrl(srcs[j])
    ensures r.None? <==> forall k :: 0 <= k < |srcs| ==> !IsValidImageUrl(srcs[k])
  {
    if |srcs| == 0 then None
    else if IsValidImageUrl(srcs[0]) then Some(srcs[0])
    else
      var rest := FirstValidImage(srcs[1..]);
      assert forall k :: 1 <= k < |srcs| ==> srcs[k] == srcs[1..][k - 1];
      rest
  }

  /** The enclosure stage: its URL, unvalidated, when the type is empty or an `image/` type. */
  function EnclosureImage(e: Entry): (r: Option<String>)
    ensures r.Some? <==> e.enclosure.Some? && e.enclosure.value.url.Some?
                         && (Empty(e.enclosure.value.mime) || StartsWith(e.enclosure.value.mime.value, "image/"))
    ensures r.Some? ==> r.value == e.enclosure.value.url.value
  {
    match e.enclosure
    case Some(Enclosure(Some(u), mime)) =>
      if Empty(mime) || StartsWith(mime.GetOr(""), "image/") then Some(u) else None
    case _ => None
  }

  /** A `media:content` element the loop accepts: it has a `url`, looks like an image, and the URL is valid. */
  predicate AcceptedMedia(n: Attributes) {
    && "url" in n
    && (Attr(n, "medium") == "image" || StartsWith(Attr(n, "type"), "image/") || !Truthy(Attr(n, "medium")))
    && Truthy(n["url"])
    && IsValidImageUrl(n["url"])
  }

  /** The `media:content` stage: the first accepted element's URL. */
  function FromMediaContent(nodes: seq<Attributes>): (r: Option<String>)
    ensures r.Some? ==> IsValidImageUrl(r.value)
    ensures r.Some? ==> exists k :: 0 <= k < |nodes| && AcceptedMedia(nodes[k]) && nodes[k]["url"] == r.value
                          && forall j :: 0 <= j < k ==> !AcceptedMedia(nodes[j])
    ensures r.None? <==> forall k :: 0 <= k < |nodes| ==> !AcceptedMedia(nodes[k])
  {
    if |nodes| == 0 then None
    else if AcceptedMedia(nodes[0]) then Some(nodes[0]["url"])
    else
      var rest := FromMediaContent(nodes[1..]);
      assert forall k :: 1 <= k < |nodes| ==> nodes[k] == nodes[1..][k - 1];
      rest
  }

  /** The first element carrying a `url` attribute: `item(0)` of `//media:thumbnail[@url]`. */
  function FirstWithUrl(nodes: seq<Attributes>): (r: Option<Attributes>)
    ensures r.Some? ==> exists k :: 0 <= k < |nodes| && nodes[k] == r.value && "url" in nodes[k]
                          && forall j :: 0 <= j < k ==> "url" !in nodes[j]
    ensures r.None? <==> forall k :: 0 <= k < |nodes| ==> "url" !in nodes[k]
  {
    if |nodes| == 0 then None
    else if "url" in nodes[0] then Some(nodes[0])
    else
      var rest := FirstWithUrl(nodes[1..]);
      assert forall k :: 1 <= k < |nodes| ==> nodes[k] == nodes[1..][k - 1];
      rest
  }

  /** The `media:thumbnail` stage: only the first thumbnail with a `url` is considered. */
  function FromThumbnails(nodes: seq<Attributes>): (r: Option<String>)
    ensures r.Some? ==> IsValidImageUrl(r.value)
    ensures r.Some? ==> FirstWithUrl(nodes).Some? && r.value == FirstWithUrl(nodes).value["url"]
    ensures FirstWithUrl(nodes).Some? && IsValidImageUrl(FirstWithUrl(nodes).value["url"])
            ==> r == Some(FirstWithUrl(nodes).value["url"])
  {
    match FirstWithUrl(nodes)
    case Some(n) => if Truthy(n["url"]) && IsValidImageUrl(n["url"]) then Some(n["url"]) else None
    case None => None
  }

  /** The `<img>` stage on a nullable HTML string: nothing unless PHP finds the string truthy. */
  function FromHtml(html: Option<String>, scan: String -> seq<String>): (r: Option<String>)
    ensures r.Some? ==> html.Some? && IsValidImageUrl(r.value) && r.value in scan(html.value)
    ensures r.None? <==> Empty(html) || forall k :: 0 <= k < |scan(html.value)| ==> !IsValidImageUrl(scan(html.value)[k])
    ensures !Empty(html) ==> r == FirstValidImage(scan(html.value))
  {
    if Empty(html) then None else FirstValidImage(scan(html.value))
  }

  /**
    `extractImageUrl` with the `media:content` and `media:thumbnail` elements the
    XPath queries see passed in: enclosure, then media content, then thumbnail,
    then the body's images, then the description's images.
   */
  function ExtractImageUrlWith(e: Entry, content: Option<String>, media: seq<Attributes>,
                               thumbs: seq<Attributes>, scan: String -> seq<String>): Option<String>
  {
    if EnclosureImage(e).Some? then EnclosureImage(e)
    else if FromMediaContent(media).Some? then FromMediaContent(media)
    else if FromThumbnails(thumbs).Some? then FromThumbnails(thumbs)
    else if FromHtml(content, scan).Some? then FromHtml(content, scan)
    else FromHtml(e.description, scan)
  }

  /** Where an accepted (non-enclosure) image URL may come from in one entry. */
  ghost predicate OwnCandidate(e: Entry, content: Option<String>, scan: String -> seq<String>, url: String) {
    || (exists k :: 0 <= k < |e.mediaContent| && AcceptedMedia(e.mediaContent[k]) && e.mediaContent[k]["url"] == url)
    || (FirstWithUrl(e.mediaThumbnails).Some? && FirstWithUrl(e.mediaThumbnails).value["url"] == url)
    || (content.Some? && url in scan(content.value))
    || (e.description.Some? && url in scan(e.description.value))
  }

  /**
    The image of an entry, looked up in the entry's own media elements. An
    untyped or an `image/` type enclosure wins unvalidated; otherwise the first
    stage with a result decides, in the order media content, thumbnail, body,
    description; any such result is a valid URL taken from the entry itself, and
    no result means every stage came up empty.
   */
  function ExtractImageUrl(e: Entry, content: Option<String>, scan: String -> seq<String>): (r: Option<String>)
    ensures EnclosureImage(e).Some? ==> r == EnclosureImage(e)
    ensures EnclosureImage(e).None? && r.Some? ==> IsValidImageUrl(r.value) && OwnCandidate(e, content, scan, r.value)
    ensures EnclosureImage(e).None? && FromMediaContent(e.mediaContent).Some?
            ==> r == FromMediaContent(e.mediaContent)
    ensures EnclosureImage(e).None? && FromMediaContent(e.mediaContent).None? && FromThumbnails(e.mediaThumbnails).Some?
            ==> r == FromThumbnails(e.mediaThumbnails)
    ensures EnclosureImage(e).None? && FromMediaContent(e.mediaContent).None? && FromThumbnails(e.mediaThumbnails).None?
            && FromHtml(content, scan).Some?
            ==> r == FromHtml(content, scan)
    ensures EnclosureImage(e).None? && FromMediaContent(e.mediaContent).None? && FromThumbnails(e.mediaThumbnails).None?
            && FromHtml(content, scan).None?
            ==> r == FromHtml(e.description, scan)
    ensures r.None? ==> (&& EnclosureImage(e).None?
                         && (forall k :: 0 <= k < |e.mediaContent| ==> !AcceptedMedia(e.mediaContent[k]))
                         && FromThumbnails(e.mediaThumbnails).None?
                         && FromHtml(content, scan).None?
                         && FromHtml(e.description, scan).None?)
  {
    ExtractImageUrlWith(e, content, e.mediaContent, e.mediaThumbnails, scan)
  }

  /** All `media:content` (or `media:thumbnail`) elements of a feed document, entry by entry. */
  function DocumentNodes(feed: seq<Entry>, thumbnails: bool): seq<Attributes> {
    if |feed| == 0 then []
    else (if thumbnails then feed[0].mediaThumbnails else feed[0].mediaContent) + DocumentNodes(feed[1..], thumbnails)
  }

  /**
    `extractImageUrl` as written: the XPath queries start at `//` on the
    entry's DOM document, which is the whole feed, so they see the media
    elements of every entry of the feed.
   */
  function ExtractImageUrlInDocument(feed: seq<Entry>, e: Entry, content: Option<String>,
                                     scan: String -> seq<String>): Option<String>
  {
    ExtractImageUrlWith(e, content, DocumentNodes(feed, false), DocumentNodes(feed, true), scan)
  }

  /** With no enclosure image, an accepted first `media:content` element decides the image. */
  lemma MediaStageWins(e: Entry, content: Option<String>, media: seq<Attributes>,
                       thumbs: seq<Attributes>, scan: String -> seq<String>)
    requires EnclosureImage(e).None? && |media| > 0 && AcceptedMedia(media[0])
    ensures ExtractImageUrlWith(e, content, media, thumbs, scan) == Some(media[0]["url"])
  {
  }

  /** An entry carrying nothing but one `media:content` element with the given URL. */
  function MediaOnlyEntry(url: String): Entry {
    Entry(None, None, None, [], [], None, None, None, None, None, [map["url" := url]], [])
  }

  const SampleA: String := "http://a.png"
  const SampleZ: String := "http://z.png"

  lemma SampleAValid()
    ensures IsValidImageUrl(SampleA)
  {
    SampleAShape();
    ValidWithoutWitnesses(SampleA);
  }

  lemma SampleAShape()
    ensures !HasUpper(SampleA) && IsHttpUrl(SampleA)
    ensures forall k :: 0 <= k < |PatternWitness| ==> PatternWitness[k] !in SampleA
  {
    assert StartsWith(SampleA, "http://");
  }

  lemma SampleZValid()
    ensures IsValidImageUrl(SampleZ)
  {
    SampleZShape();
    ValidWithoutWitnesses(SampleZ);
  }

  lemma SampleZShape()
    ensures !HasUpper(SampleZ) && IsHttpUrl(SampleZ)
    ensures forall k :: 0 <= k < |PatternWitness| ==> PatternWitness[k] !in SampleZ
  {
    assert StartsWith(SampleZ, "http://");
  }

  /** A lone `url` attribute holding a valid URL is an accepted `media:content` element. */
  lemma UrlOnlyAccepted(url: String)
    requires IsValidImageUrl(url)
    ensures AcceptedMedia(map["url" := url])
  {
  }

  /** The `media:content` elements of the two-entry feed, as the document-wide query lists them. */
  lemma TwoEntryMedia()
    ensures DocumentNodes([MediaOnlyEntry(SampleA), MediaOnlyEntry(SampleZ)], false)
            == [map["url" := SampleA], map["url" := SampleZ]]
  {
    var e2 := MediaOnlyEntry(SampleZ);
    assert [MediaOnlyEntry(SampleA), e2][1..] == [e2];
    assert DocumentNodes([e2], false) == [map["url" := SampleZ]];
  }

  /** As written, the second entry of the two-entry feed is given the first entry's image. */
  lemma DocumentScopeBorrows(scan: String -> seq<String>)
    ensures ExtractImageUrlInDocument([MediaOnlyEntry(SampleA), MediaOnlyEntry(SampleZ)], MediaOnlyEntry(SampleZ), None, scan)
            == Some(SampleA)
  {
    var feed := [MediaOnlyEntry(SampleA), MediaOnlyEntry(SampleZ)];
    SampleAValid();
    UrlOnlyAccepted(SampleA);
    TwoEntryMedia();
    MediaStageWins(MediaOnlyEntry(SampleZ), None, DocumentNodes(feed, false), DocumentNodes(feed, true), scan);
  }

  /** The entry-scoped lookup gives the second entry its own image. */
  lemma EntryScopeOwnImage(scan: String -> seq<String>)
    ensures ExtractImageUrl(MediaOnlyEntry(SampleZ), None, scan) == Some(SampleZ)
  {
    SampleZValid();
    UrlOnlyAccepted(SampleZ);
    MediaStageWins(MediaOnlyEntry(SampleZ), None, [map["url" := SampleZ]], [], scan);
  }

  /**
    Two entries, each with its own valid `media:content` image: as written,
    the second entry is given the first entry's image; the entry-scoped lookup
    gives it its own.
   */
  lemma DocumentScopeBorrowsImage(scan: String -> seq<String>)
    ensures ExtractImageUrlInDocument([MediaOnlyEntry(SampleA), MediaOnlyEntry(SampleZ)], MediaOnlyEntry(SampleZ), None, scan)
            == Some(SampleA)
    ensures ExtractImageUrl(MediaOnlyEntry(SampleZ), None, scan) == Some(SampleZ)
  {
    DocumentScopeBorrows(scan);
    EntryScopeOwnImage(scan);
  }
}

=== FILE: ingestion.dfy ===
/**
  Feed ingestion: one refresh of one source turns the parsed entries of its feed
  into new `feed_items` rows, skipping every entry whose `(source_id, guid)` is
  already stored, and a refresh of all sources keeps a report of the outcomes.

  The item table is a sequence in insertion order. The outside world is an `Env`:
  the fetch of a URL (`None` when the request fails), the feed parser (`None`
  when it throws), `md5`, the `<img src>` scan and the current timestamp.
 */
module Ingestion {
  import opened Wrappers
  import opened PhpStrings
  import opened Explode
  import opened Entries
  import opened FeedItems
  import opened Images

  datatype Source = Source(id: nat, url: String, lastRefresh: Option<int>)

  datatype Env = Env(
    fetch: String -> Option<String>,
    parse: String -> Option<seq<Entry>>,
    md5: String -> String,
    scan: String -> seq<String>,
    now: int)

  type Store = seq<FeedItem>

  predicate HasItem(store: Store, sid: nat, guid: String) {
    exists k :: 0 <= k < |store| && store[k].sourceId == sid && store[k].guid == guid
  }

  /** The unique `(source_id, guid)` index of `feed_items`. */
  predicate UniqueKeys(store: Store) {
    forall i, j :: 0 <= i < j < |store| ==> store[i].sourceId != store[j].sourceId || store[i].guid != store[j].guid
  }

  lemma HasItemExtends(store: Store, more: Store, sid: nat, guid: String)
    requires HasItem(store, sid, guid)
    ensures HasItem(store + more, sid, guid)
  {
    var k :| 0 <= k < |store| && store[k].sourceId == sid && store[k].guid == guid;
    assert (store + more)[k] == store[k];
  }

  // ---------------------------------------------------------------------------
  // Field normalisation
  // ---------------------------------------------------------------------------

  /** `$entry->getId() ?: md5($entry->getLink() . $entry->getTitle())`, with null read as "". */
  function EntryGuid(e: Entry, md5: String -> String): String {
    if Truthy(e.id.GetOr("")) then e.id.value else md5(e.link.GetOr("") + e.title.GetOr(""))
  }

  /** The guid as it is written to the 500-character column. */
  function StoredGuid(e: Entry, md5: String -> String): String {
    Truncate(EntryGuid(e, md5), GuidMax)
  }

  /** One author's name: `getName() ?: getEmail()` for an object, `name ?? email ?? ''` for an array. */
  function AuthorName(a: AuthorDatum): Option<String> {
    match a
    case AuthorObject(name, email) => if Truthy(name.GetOr("")) then name else email
    case AuthorArray(name, email) => if name.Some? then name else if email.Some? then email else Some("")
    case AuthorText(text) => Some(text)
  }

  /** `array_filter`: the values PHP finds truthy, in order. */
  function TruthyValues(vs: seq<Option<String>>): (r: seq<String>)
    ensures forall k :: 0 <= k < |r| ==> Truthy(r[k]) && Some(r[k]) in vs
    ensures |r| == 0 <==> forall k :: 0 <= k < |vs| ==> !Truthy(vs[k].GetOr(""))
    ensures forall k :: 0 <= k < |vs| && Truthy(vs[k].GetOr("")) ==> vs[k].value in r
  {
    if |vs| == 0 then []
    else
      var rest := TruthyValues(vs[1..]);
      assert forall k :: 1 <= k < |vs| ==> vs[k] == vs[1..][k - 1];
      if Truthy(vs[0].GetOr("")) then [vs[0].value] + rest else rest
  }

  /** One more value extends the result by that value exactly when PHP finds it truthy: all truthy values, in order. */
  lemma {:induction false} TruthyValuesSnoc(vs: seq<Option<String>>, v: Option<String>)
    ensures TruthyValues(vs + [v]) == TruthyValues(vs) + (if Truthy(v.GetOr("")) then [v.value] else [])
    decreases |vs|
  {
    if |vs| > 0 {
      var w := vs + [v];
      assert w[0] == vs[0] && w[1..] == vs[1..] + [v];
      TruthyValuesSnoc(vs[1..], v);
      var head := if Truthy(vs[0].GetOr("")) then [vs[0].value] else [];
      assert TruthyValues(w) == head + TruthyValues(w[1..]);
      assert TruthyValues(vs) == head + TruthyValues(vs[1..]);
    } else {
      assert TruthyValues([v]) == (if Truthy(v.GetOr("")) then [v.value] else []) + TruthyValues([]);
    }
  }

  function AuthorValues(e: Entry): (vs: seq<Option<String>>)
    ensures |vs| == |e.authors| && forall k :: 0 <= k < |vs| ==> vs[k] == AuthorName(e.authors[k])
  {
    seq(|e.authors|, k requires 0 <= k < |e.authors| => AuthorName(e.authors[k]))
  }

  /** The author names that survive `array_filter`, in feed order. */
  function AuthorNames(e: Entry): seq<String> {
    TruthyValues(AuthorValues(e))
  }

  /** One category's label: `getLabel() ?: getTerm()` for an object, `label ?? term ?? ''` for an array. */
  function CategoryLabel(c: CategoryDatum): Option<String> {
    match c
    case CategoryObject(l, t) => if Truthy(l.GetOr("")) then l else t
    case CategoryArray(l, t) => if l.Some? then l else if t.Some? then t else Some("")
    case CategoryText(text) => Some(text)
  }

  /** The category labels as `implode` sees them: a null label becomes "". */
  function CategoryLabels(e: Entry): seq<String> {
    seq(|e.categories|, k requires 0 <= k < |e.categories| => CategoryLabel(e.categories[k]).GetOr(""))
  }

  /** `$content = getContent() ?: getDescription()`. */
  function EntryContent(e: Entry): Option<String> {
    if Truthy(e.content.GetOr("")) then e.content else e.description
  }

  /** `getDateModified() ?? getDateCreated() ?? now`. */
  function PubDate(e: Entry, now: int): int {
    if e.dateModified.Some? then e.dateModified.value
    else if e.dateCreated.Some? then e.dateCreated.value
    else now
  }

  /** A list of truthy names joined with a non-empty separator is truthy exactly when the list is non-empty. */
  lemma {:induction false} JoinTruthy(names: seq<String>, sep: String)
    requires forall k :: 0 <= k < |names| ==> Truthy(names[k])
    requires |sep| >= 1
    ensures Truthy(Join(names, sep)) <==> |names| > 0
  {
    if |names| >= 2 {
      var j := Join(names, sep);
      assert j == names[0] + sep + Join(names[1..], sep);
      assert |j| >= 2;
    }
  }

  /** The row written for an entry of source `sid`. */
  function ItemFor(sid: nat, e: Entry, env: Env): (item: FeedItem)
    ensures WithinColumns(item)
    ensures item.sourceId == sid && item.guid == StoredGuid(e, env.md5)
    ensures e.title.None? ==> item.title == "Ohne Titel"
    ensures e.title.Some? ==> item.title == Truncate(e.title.value, TitleMax)
    ensures e.link.None? ==> item.link == ""
    ensures e.link.Some? ==> item.link == Truncate(e.link.value, LinkMax)
    ensures item.author.None? <==> forall k :: 0 <= k < |e.authors| ==> !Truthy(AuthorName(e.authors[k]).GetOr(""))
    ensures item.author.Some? ==> item.author.value == Truncate(Join(AuthorNames(e), ", "), AuthorMax)
    ensures item.categories.None? <==> |e.categories| == 0
    ensures item.categories.Some? ==> item.categories.value == Truncate(Join(CategoryLabels(e), [',']), CategoriesMax)
    ensures item.imageUrl.Some? ==> var x := ExtractImageUrl(e, EntryContent(e), env.scan);
                                    x.Some? && Truthy(x.value) && item.imageUrl.value == Truncate(x.value, ImageUrlMax)
    ensures item.imageUrl.None? ==> Empty(ExtractImageUrl(e, EntryContent(e), env.scan))
    ensures item.content == EntryContent(e)
    ensures item.pubDate == PubDate(e, env.now)
  {
    var names := AuthorNames(e);
    var line := Join(names, ", ");
    JoinTruthy(names, ", ");
    var content := EntryContent(e);
    var image := ExtractImageUrl(e, content, env.scan);
    FeedItem(
      sid,
      StoredGuid(e, env.md5),
      Truncate(e.title.GetOr("Ohne Titel"), TitleMax),
      Truncate(e.link.GetOr(""), LinkMax),
      content,
      if Truthy(line) then Some(Truncate(line, AuthorMax)) else None,
      if |e.categories| > 0 then Some(Truncate(Join(CategoryLabels(e), [',']), CategoriesMax)) else None,
      if !Empty(image) then Some(Truncate(image.value, ImageUrlMax)) else None,
      PubDate(e, env.now))
  }

  /** Two id-less entries with the same link and title share their guid, whoever computes it. */
  lemma FallbackGuidShared(e1: Entry, e2: Entry, md5: String -> String)
    requires !Truthy(e1.id.GetOr("")) && !Truthy(e2.id.GetOr(""))
    requires e1.link == e2.link && e1.title == e2.title
    ensures EntryGuid(e1, md5) == EntryGuid(e2, md5)
  {
  }

  /**
    Labels that are present, trimmed and comma-free, whose join fits the column and
    is not "" or "0", are read back unchanged from the stored row.
   */
  lemma CategoriesSurviveStorage(sid: nat, e: Entry, env: Env)
    requires forall k :: 0 <= k < |e.categories| ==> CategoryLabel(e.categories[k]).Some?
    requires var ls := CategoryLabels(e);
             && (forall k :: 0 <= k < |ls| ==> IsTrimmed(ls[k], PhpWhitespace) && ',' !in ls[k])
             && Truthy(Join(ls, [','])) && |Join(ls, [','])| <= CategoriesMax
    ensures CategoriesArray(ItemFor(sid, e, env)) == CategoryLabels(e)
  {
    var ls := CategoryLabels(e);
    CategoriesRoundTrip(ItemFor(sid, e, env), ls);
  }

  // ---------------------------------------------------------------------------
  // The entry loop
  // ---------------------------------------------------------------------------

  /** One pass of the loop body: the row is appended unless its key is stored already. */
  function SaveNew(store: Store, item: FeedItem): (r: Store)
    ensures HasItem(r, item.sourceId, item.guid)
    ensures HasItem(store, item.sourceId, item.guid) ==> r == store
    ensures !HasItem(store, item.sourceId, item.guid) ==> r == store + [item]
    ensures UniqueKeys(store) ==> UniqueKeys(r)
  {
    if HasItem(store, item.sourceId, item.guid) then store
    else
      var r := store + [item];
      assert r[|store|] == item;
      r
  }

  /**
    The loop of `refreshSource`, with the existence check made on the guid as it is
    stored: entries are taken in feed order, an entry whose key is already in the
    store (saved earlier, or by an earlier entry of the same feed) is skipped, and
    every other entry is appended.
   */
  function Ingest(store: Store, sid: nat, entries: seq<Entry>, env: Env): (r: Store)
    ensures |store| <= |r| <= |store| + |entries| && r[..|store|] == store
    ensures forall k :: |store| <= k < |r| ==> r[k].sourceId == sid && WithinColumns(r[k])
    ensures forall i :: 0 <= i < |entries| ==> HasItem(r, sid, StoredGuid(entries[i], env.md5))
    ensures UniqueKeys(store) ==> UniqueKeys(r)
    decreases |entries|
  {
    if |entries| == 0 then store
    else
      var item := ItemFor(sid, entries[0], env);
      var next := SaveNew(store, item);
      var r := Ingest(next, sid, entries[1..], env);
      IngestFacts(store, item, next, r, sid);
      IngestKeys(entries, r, sid, env.md5);
      r
  }

  lemma IngestKeys(entries: seq<Entry>, r: Store, sid: nat, md5: String -> String)
    requires |entries| > 0 && HasItem(r, sid, StoredGuid(entries[0], md5))
    requires forall i :: 0 <= i < |entries| - 1 ==> HasItem(r, sid, StoredGuid(entries[1..][i], md5))
    ensures forall i :: 0 <= i < |entries| ==> HasItem(r, sid, StoredGuid(entries[i], md5))
  {
    forall i | 1 <= i < |entries|
      ensures HasItem(r, sid, StoredGuid(entries[i], md5))
    {
      assert entries[i] == entries[1..][i - 1];
    }
  }

  lemma IngestFacts(store: Store, item: FeedItem, next: Store, r: Store, sid: nat)
    requires item.sourceId == sid && WithinColumns(item)
    requires next == SaveNew(store, item)
    requires |next| <= |r| && r[..|next|] == next
    requires forall k :: |next| <= k < |r| ==> r[k].sourceId == sid && WithinColumns(r[k])
    ensures |store| <= |r| && r[..|store|] == store
    ensures forall k :: |store| <= k < |r| ==> r[k].sourceId == sid && WithinColumns(r[k])
    ensures HasItem(r, sid, item.guid)
  {
    assert r == next + r[|next|..];
    HasItemExtends(next, r[|next|..], sid, item.guid);
    assert r[..|store|] == next[..|store|];
    forall k | |store| <= k < |next|
      ensures r[k].sourceId == sid && WithinColumns(r[k])
    {
      assert r[k] == next[k] == item;
    }
  }

  /**
    Entry `i` of a feed is saved by the loop: its key is not in the store the loop
    started from, and no earlier entry of the feed has the same key.
   */
  predicate FirstNew(store: Store, sid: nat, entries: seq<Entry>, md5: String -> String, i: nat)
    requires i < |entries|
  {
    && !HasItem(store, sid, StoredGuid(entries[i], md5))
    && forall j :: 0 <= j < i ==> StoredGuid(entries[j], md5) != StoredGuid(entries[i], md5)
  }

  /** The rows of the entries from index `i` on that the loop saves, in feed order. */
  function FreshFrom(store: Store, sid: nat, entries: seq<Entry>, env: Env, i: nat): seq<FeedItem>
    requires i <= |entries|
    decreases |entries| - i
  {
    if i == |entries| then []
    else (if FirstNew(store, sid, entries, env.md5, i) then [ItemFor(sid, entries[i], env)] else [])
         + FreshFrom(store, sid, entries, env, i + 1)
  }

  /** The rows a feed adds to `store`: one per entry saved by the loop, in feed order. */
  function Fresh(store: Store, sid: nat, entries: seq<Entry>, env: Env): seq<FeedItem> {
    FreshFrom(store, sid, entries, env, 0)
  }

  lemma HasItemSnoc(store: Store, item: FeedItem, sid: nat, guid: String)
    ensures HasItem(store + [item], sid, guid) <==> HasItem(store, sid, guid) || (item.sourceId == sid && item.guid == guid)
  {
    var s := store + [item];
    if HasItem(s, sid, guid) && !(item.sourceId == sid && item.guid == guid) {
      var k :| 0 <= k < |s| && s[k].sourceId == sid && s[k].guid == guid;
      assert k < |store| && store[k] == s[k];
    }
    if HasItem(store, sid, guid) {
      HasItemExtends(store, [item], sid, guid);
    }
    if item.sourceId == sid && item.guid == guid {
      assert s[|store|] == item;
    }
  }

  /** After the first entry has been handled, entry `k` is saved from `next` exactly when it was saved from `store`. */
  lemma FirstNewShift(store: Store, sid: nat, entries: seq<Entry>, env: Env, k: nat)
    requires 1 <= k < |entries|
    ensures var next := SaveNew(store, ItemFor(sid, entries[0], env));
            FirstNew(store, sid, entries, env.md5, k) <==> FirstNew(next, sid, entries[1..], env.md5, k - 1)
  {
    var item := ItemFor(sid, entries[0], env);
    var gk := StoredGuid(entries[k], env.md5);
    assert entries[1..][k - 1] == entries[k];
    assert forall j :: 0 <= j < k - 1 ==> entries[1..][j] == entries[j + 1];
    if !HasItem(store, sid, item.guid) {
      HasItemSnoc(store, item, sid, gk);
    }
  }

  lemma {:induction false} FreshShift(store: Store, next: Store, sid: nat, entries: seq<Entry>, env: Env, i: nat)
    requires 1 <= i <= |entries|
    requires forall k :: i <= k < |entries| ==>
               (FirstNew(store, sid, entries, env.md5, k) <==> FirstNew(next, sid, entries[1..], env.md5, k - 1))
    ensures FreshFrom(store, sid, entries, env, i) == FreshFrom(next, sid, entries[1..], env, i - 1)
    decreases |entries| - i
  {
    if i < |entries| {
      assert entries[1..][i - 1] == entries[i];
      FreshShift(store, next, sid, entries, env, i + 1);
    }
  }

  /**
    What the loop appends is exactly the row of every entry whose key is not yet
    stored, at its first occurrence in the feed, in feed order.
   */
  lemma {:induction false} IngestFresh(store: Store, sid: nat, entries: seq<Entry>, env: Env)
    ensures Ingest(store, sid, entries, env) == store + Fresh(store, sid, entries, env)
    decreases |entries|
  {
    if |entries| > 0 {
      var next := SaveNew(store, ItemFor(sid, entries[0], env));
      IngestFresh(next, sid, entries[1..], env);
      FreshStep(store, sid, entries, env);
    }
  }

  /** Handling the first entry moves its row, if saved, from the fresh rows into the store. */
  lemma FreshStep(store: Store, sid: nat, entries: seq<Entry>, env: Env)
    requires |entries| > 0
    ensures var next := SaveNew(store, ItemFor(sid, entries[0], env));
            store + Fresh(store, sid, entries, env) == next + Fresh(next, sid, entries[1..], env)
  {
    var next := SaveNew(store, ItemFor(sid, entries[0], env));
    forall k | 1 <= k < |entries|
      ensures FirstNew(store, sid, entries, env.md5, k) <==> FirstNew(next, sid, entries[1..], env.md5, k - 1)
    {
      FirstNewShift(store, sid, entries, env, k);
    }
    FreshShift(store, next, sid, entries, env, 1);
    var item := ItemFor(sid, entries[0], env);
    var rest := FreshFrom(store, sid, entries, env, 1);
    assert Fresh(store, sid, entries, env) == (if FirstNew(store, sid, entries, env.md5, 0) then [item] else []) + rest;
    assert Fresh(next, sid, entries[1..], env) == rest;
    if HasItem(store, sid, item.guid) {
      assert next == store && Fresh(store, sid, entries, env) == rest;
    } else {
      assert next == store + [item] && Fresh(store, sid, entries, env) == [item] + rest;
      SnocShift(store, item, rest);
    }
  }

  lemma SnocShift<T>(s: seq<T>, x: T, t: seq<T>)
    ensures s + ([x] + t) == (s + [x]) + t
  {
  }

  /** Entries whose keys are all stored already add nothing. */
  lemma {:induction false} IngestAllPresent(store: Store, sid: nat, entries: seq<Entry>, env: Env)
    requires forall i :: 0 <= i < |entries| ==> HasItem(store, sid, StoredGuid(entries[i], env.md5))
    ensures Ingest(store, sid, entries, env) == store
    decreases |entries|
  {
    if |entries| > 0 {
      assert forall i :: 0 <= i < |entries| - 1 ==> entries[1..][i] == entries[i + 1];
      IngestAllPresent(store, sid, entries[1..], env);
    }
  }

  /** Ingesting the same entries twice is ingesting them once. */
  lemma IngestIdempotent(store: Store, sid: nat, entries: seq<Entry>, env: Env)
    ensures Ingest(Ingest(store, sid, entries, env), sid, entries, env) == Ingest(store, sid, entries, env)
  {
    IngestAllPresent(Ingest(store, sid, entries, env), sid, entries, env);
  }

  /** Two id-less entries with the same link and title in one feed are saved once. */
  lemma FallbackTwinSkipped(store: Store, sid: nat, e1: Entry, e2: Entry, env: Env)
    requires !Truthy(e1.id.GetOr("")) && !Truthy(e2.id.GetOr(""))
    requires e1.link == e2.link && e1.title == e2.title
    ensures Ingest(store, sid, [e1, e2], env) == Ingest(store, sid, [e1], env)
  {
    FallbackGuidShared(e1, e2, env.md5);
    var s1 := Ingest(store, sid, [e1], env);
    assert HasItem(s1, sid, StoredGuid(e2, env.md5));
    IngestAllPresent(s1, sid, [e2], env);
    assert [e1, e2][1..] == [e2];
    assert Ingest(store, sid, [e1, e2], env) == Ingest(s1, sid, [e2], env) by {
      var next := SaveNew(store, ItemFor(sid, e1, env));
      assert Ingest(store, sid, [e1], env) == Ingest(next, sid, [], env) == next;
    }
  }

  // ---------------------------------------------------------------------------
  // refreshSource
  // ---------------------------------------------------------------------------

  /** The outcome of one refresh: the item store, the source row and the return value. */
  datatype Refresh = Refresh(store: Store, source: Source, newItems: int)

  /** The fetch or the parse failed: `refreshSource` returns -1 without touching anything. */
  predicate FetchFails(source: Source, env: Env) {
    Empty(env.fetch(source.url)) || env.parse(env.fetch(source.url).value).None?
  }

  /** The entries of a feed that could be fetched and parsed. */
  function FeedEntries(source: Source, env: Env): seq<Entry>
    requires !FetchFails(source, env)
  {
    env.parse(env.fetch(source.url).value).value
  }

  /**
    `refreshSource`: -1 and nothing changed when the fetch yields no content or the
    feed cannot be parsed; otherwise the new rows are appended, `last_refresh` is set
    to now, and the number of new rows is returned.
   */
  function RefreshSource(store: Store, source: Source, env: Env): (r: Refresh)
    ensures r.newItems == -1 <==> FetchFails(source, env)
    ensures r.newItems == -1 ==> r.store == store && r.source == source
    ensures r.newItems >= 0 ==> && |store| <= |r.store| && r.store[..|store|] == store
                                && r.newItems == |r.store| - |store|
                                && r.source == source.(lastRefresh := Some(env.now))
    ensures forall k :: |store| <= k < |r.store| ==> r.store[k].sourceId == source.id && WithinColumns(r.store[k])
    ensures UniqueKeys(store) ==> UniqueKeys(r.store)
    ensures !FetchFails(source, env) ==> r.store == store + Fresh(store, source.id, FeedEntries(source, env), env)
    ensures !FetchFails(source, env) ==>
              forall i :: 0 <= i < |FeedEntries(source, env)| ==>
                HasItem(r.store, source.id, StoredGuid(FeedEntries(source, env)[i], env.md5))
  {
    if FetchFails(source, env) then Refresh(store, source, -1)
    else
      var entries := FeedEntries(source, env);
      var s := Ingest(store, source.id, entries, env);
      IngestFresh(store, source.id, entries, env);
      Refresh(s, source.(lastRefresh := Some(env.now)), |s| - |store|)
  }

  /** A second refresh of a source whose feed has not changed returns 0 and adds nothing. */
  lemma RefreshIdempotent(store: Store, source: Source, env: Env)
    requires RefreshSource(store, source, env).newItems >= 0
    ensures var r1 := RefreshSource(store, source, env);
            var r2 := RefreshSource(r1.store, r1.source, env);
            r2.newItems == 0 && r2.store == r1.store && r2.source == r1.source
  {
    var entries := env.parse(env.fetch(source.url).value).value;
    IngestIdempotent(store, source.id, entries, env);
  }

  // ---------------------------------------------------------------------------
  // refreshSource as written: existence check on the full guid
  // ---------------------------------------------------------------------------

  /** The stored rows after the loop, and whether the loop ended in an exception. */
  datatype Run = Run(store: Store, crashed: bool)

  /**
    The loop as written: it asks for the full guid but saves the first 500
    characters, so an entry with a longer id is not found again, and its save then
    hits the unique index. The exception ends the loop; earlier rows stay saved.
   */
  function IngestAsWritten(store: Store, sid: nat, entries: seq<Entry>, env: Env): (r: Run)
    ensures |store| <= |r.store| && r.store[..|store|] == store
    ensures UniqueKeys(store) ==> UniqueKeys(r.store)
    decreases |entries|
  {
    if |entries| == 0 then Run(store, false)
    else
      var item := ItemFor(sid, entries[0], env);
      if HasItem(store, sid, EntryGuid(entries[0], env.md5)) then IngestAsWritten(store, sid, entries[1..], env)
      else if HasItem(store, sid, item.guid) then Run(store, true)
      else
        var r := IngestAsWritten(store + [item], sid, entries[1..], env);
        assert (store + [item])[..|store|] == store;
        r
  }

  function RefreshSourceAsWritten(store: Store, source: Source, env: Env): (r: Refresh)
    ensures r.newItems == -1 ==> r.source == source
    ensures r.newItems >= 0 ==> r.newItems == |r.store| - |store|
  {
    if FetchFails(source, env) then Refresh(store, source, -1)
    else
      var run := IngestAsWritten(store, source.id, env.parse(env.fetch(source.url).value).value, env);
      if run.crashed then Refresh(run.store, source, -1)
      else Refresh(run.store, source.(lastRefresh := Some(env.now)), |run.store| - |store|)
  }

  predicate ShortGuids(entries: seq<Entry>, md5: String -> String) {
    forall i :: 0 <= i < |entries| ==> |EntryGuid(entries[i], md5)| <= GuidMax
  }

  /** While no guid is longer than its column, the loop as written and the corrected loop agree. */
  lemma {:induction false} AsWrittenAgreesOnShortGuids(store: Store, sid: nat, entries: seq<Entry>, env: Env)
    requires ShortGuids(entries, env.md5)
    ensures IngestAsWritten(store, sid, entries, env) == Run(Ingest(store, sid, entries, env), false)
    decreases |entries|
  {
    if |entries| > 0 {
      assert forall i :: 0 <= i < |entries| - 1 ==> entries[1..][i] == entries[i + 1];
      assert StoredGuid(entries[0], env.md5) == EntryGuid(entries[0], env.md5);
      var item := ItemFor(sid, entries[0], env);
      var next := SaveNew(store, item);
      AsWrittenAgreesOnShortGuids(next, sid, entries[1..], env);
    }
  }

  /** An entry whose id is 501 characters long. */
  function LongIdEntry(): Entry {
    Entry(Some(seq(GuidMax + 1, _ => 'a')), None, None, [], [], None, None, None, None, None, [], [])
  }

  /**
    Refreshing twice a source whose feed holds one entry with a 501-character id:
    as written, the second refresh fails with -1; the corrected refresh returns 0.
   */
  lemma LongGuidBreaksIdempotence(source: Source, env: Env)
    requires !Empty(env.fetch(source.url))
    requires env.parse(env.fetch(source.url).value) == Some([LongIdEntry()])
    ensures var r1 := RefreshSourceAsWritten([], source, env);
            r1.newItems == 1 && RefreshSourceAsWritten(r1.store, r1.source, env).newItems == -1
    ensures var r1 := RefreshSource([], source, env);
            r1.newItems == 1 && RefreshSource(r1.store, r1.source, env).newItems == 0
  {
    var e := LongIdEntry();
    var full := EntryGuid(e, env.md5);
    assert full == e.id.value;
    assert |full| == GuidMax + 1;
    var item := ItemFor(source.id, e, env);
    assert item.guid == full[..GuidMax];
    var s1 := [item];
    assert IngestAsWritten([], source.id, [e], env) == Run(s1, false) by {
      assert !HasItem([], source.id, full);
      assert IngestAsWritten(s1, source.id, [], env) == Run(s1, false);
    }
    assert !HasItem(s1, source.id, full) by {
      assert s1[0].guid != full;
    }
    assert HasItem(s1, source.id, item.guid) by {
      assert s1[0].sourceId == source.id;
    }
    assert IngestAsWritten(s1, source.id, [e], env) == Run(s1, true);
    RefreshIdempotent([], source, env);
  }

  // ---------------------------------------------------------------------------
  // refreshAll
  // ---------------------------------------------------------------------------

  datatype Report = Report(total: nat, success: nat, failed: nat, newItems: nat)

  function CountNonNeg(results: seq<int>): (n: nat)
    ensures n <= |results|
  {
    if |results| == 0 then 0 else (if results[0] >= 0 then 1 else 0) + CountNonNeg(results[1..])
  }

  function SumNonNeg(results: seq<int>): nat {
    if |results| == 0 then 0 else (if results[0] >= 0 then results[0] else 0) + SumNonNeg(results[1..])
  }

  lemma {:induction false} CountSumSnoc(results: seq<int>, x: int)
    ensures CountNonNeg(results + [x]) == CountNonNeg(results) + (if x >= 0 then 1 else 0)
    ensures SumNonNeg(results + [x]) == SumNonNeg(results) + (if x >= 0 then x else 0)
    decreases |results|
  {
    if |results| > 0 {
      assert (results + [x])[1..] == results[1..] + [x];
      CountSumSnoc(results[1..], x);
    }
  }

  lemma PrefixOfPrefix(a: Store, b: Store, c: Store)
    requires |a| <= |b| && b[..|a|] == a
    requires |b| <= |c| && c[..|b|] == b
    ensures |a| <= |c| && c[..|a|] == a
  {
    assert c[..|a|] == c[..|b|][..|a|];
  }

  lemma Snoc<T>(s: seq<T>, x: T)
    ensures |s + [x]| == |s| + 1 && (s + [x])[|s|] == x
    ensures forall k :: 0 <= k < |s| ==> (s + [x])[k] == s[k]
  {
  }

  /** The per-source outcome of `refreshAll` for the first `i` sources. */
  predicate Outcomes(sources: seq<Source>, sources': seq<Source>, results: seq<int>, i: nat, env: Env)
    requires i <= |sources| && |sources'| == |results| == i
  {
    && (forall k :: 0 <= k < i ==> (results[k] == -1 <==> FetchFails(sources[k], env)))
    && (forall k :: 0 <= k < i ==> results[k] >= -1)
    && (forall k :: 0 <= k < i ==>
          sources'[k] == if results[k] >= 0 then sources[k].(lastRefresh := Some(env.now)) else sources[k])
  }

  lemma OutcomesSnoc(sources: seq<Source>, sources': seq<Source>, results: seq<int>, i: nat, env: Env, r: Refresh)
    requires i < |sources| && |sources'| == |results| == i
    requires Outcomes(sources, sources', results, i, env)
    requires r.newItems == -1 <==> FetchFails(sources[i], env)
    requires r.newItems >= -1
    requires r.source == if r.newItems >= 0 then sources[i].(lastRefresh := Some(env.now)) else sources[i]
    ensures Outcomes(sources, sources' + [r.source], results + [r.newItems], i + 1, env)
  {
    Snoc(sources', r.source);
    Snoc(results, r.newItems);
  }

  /** The report of `refreshAll` against the results so far and the store they left. */
  predicate Tally(store: Store, store': Store, report: Report, results: seq<int>, total: nat) {
    && report.total == total
    && report.success + report.failed == |results|
    && report.success == CountNonNeg(results)
    && report.newItems == SumNonNeg(results)
    && |store| <= |store'| && store'[..|store|] == store && report.newItems == |store'| - |store|
  }

  /** The counters after one more refresh. */
  function Count(report: Report, newItems: int): Report {
    if newItems >= 0 then report.(success := report.success + 1, newItems := report.newItems + newItems)
    else report.(failed := report.failed + 1)
  }

  lemma TallySnoc(store: Store, store': Store, report: Report, results: seq<int>, total: nat, r: Refresh)
    requires Tally(store, store', report, results, total)
    requires r.newItems == -1 ==> r.store == store'
    requires r.newItems >= -1
    requires r.newItems >= 0 ==> |store'| <= |r.store| && r.store[..|store'|] == store' && r.newItems == |r.store| - |store'|
    ensures Tally(store, r.store, Count(report, r.newItems), results + [r.newItems], total)
  {
    CountSumSnoc(results, r.newItems);
    if r.newItems >= 0 {
      PrefixOfPrefix(store, store', r.store);
    }
  }

  /** The state `refreshAll` has reached: the store, the updated source rows and the return values so far. */
  datatype Sweep = Sweep(store: Store, sources: seq<Source>, results: seq<int>)

  /** Running `step` on the first `n` of `sources` in turn, each against the store the steps before it left. */
  function Fold(store: Store, sources: seq<Source>, n: nat, step: (Store, Source) -> Refresh): (f: Sweep)
    requires n <= |sources|
    ensures |f.sources| == |f.results| == n
  {
    if n == 0 then Sweep(store, [], [])
    else
      var f := Fold(store, sources, n - 1, step);
      var r := step(f.store, sources[n - 1]);
      Sweep(r.store, f.sources + [r.source], f.results + [r.newItems])
  }

  /** The `k`-th return value and source row of a fold are those of the `k`-th step. */
  lemma {:induction false} FoldAt(store: Store, sources: seq<Source>, n: nat, k: nat, step: (Store, Source) -> Refresh)
    requires k < n <= |sources|
    ensures var r := step(Fold(store, sources, k, step).store, sources[k]);
            var all := Fold(store, sources, n, step);
            all.results[k] == r.newItems && all.sources[k] == r.source
  {
    var f := Fold(store, sources, n - 1, step);
    var last := step(f.store, sources[n - 1]);
    Snoc(f.sources, last.source);
    Snoc(f.results, last.newItems);
    if k < n - 1 {
      FoldAt(store, sources, n - 1, k, step);
    }
  }

  /** `refreshSource` as the step of `refreshAll`. */
  function Refresher(env: Env): (Store, Source) -> Refresh {
    (store, source) => RefreshSource(store, source, env)
  }

  /**
    The `k`-th return value and source row of `refreshAll` are those of
    `refreshSource` on source `k`, run against the store the first `k` refreshes left.
   */
  lemma FoldResultAt(store: Store, sources: seq<Source>, k: nat, env: Env)
    requires k < |sources|
    ensures var r := RefreshSource(Fold(store, sources, k, Refresher(env)).store, sources[k], env);
            var all := Fold(store, sources, |sources|, Refresher(env));
            all.results[k] == r.newItems && all.sources[k] == r.source
  {
    FoldAt(store, sources, |sources|, k, Refresher(env));
  }

  /** What `refreshAll` has established after refreshing the first `i` sources. */
  predicate Reached(store: Store, sources: seq<Source>, env: Env, i: nat,
                    report: Report, store': Store, sources': seq<Source>, results: seq<int>)
  {
    && i <= |sources| && |results| == |sources'| == i
    && Tally(store, store', report, results, |sources|)
    && Outcomes(sources, sources', results, i, env)
    && (UniqueKeys(store) ==> UniqueKeys(store'))
    && Sweep(store', sources', results) == Fold(store, sources, i, Refresher(env))
  }

  lemma ReachedStep(store: Store, sources: seq<Source>, env: Env, i: nat,
                    report: Report, store': Store, sources': seq<Source>, results: seq<int>, r: Refresh)
    requires i < |sources| && Reached(store, sources, env, i, report, store', sources', results)
    requires r == RefreshSource(store', sources[i], env)
    ensures Reached(store, sources, env, i + 1, Count(report, r.newItems), r.store, sources' + [r.source], results + [r.newItems])
  {
    TallySnoc(store, store', report, results, |sources|, r);
    OutcomesSnoc(sources, sources', results, i, env, r);
    assert Refresher(env)(store', sources[i]) == r;
  }

  /**
    `refreshAll`: every source is refreshed in turn against the store the previous
    refreshes left. The report counts the sources, the successes (result at least 0),
    the failures and the sum of the successful results.
   */
  method RefreshAll(store: Store, sources: seq<Source>, env: Env)
    returns (report: Report, store': Store, sources': seq<Source>, results: seq<int>)
    ensures |results| == |sources| == |sources'| == report.total
    ensures report.success + report.failed == report.total
    ensures report.success == CountNonNeg(results)
    ensures report.newItems == SumNonNeg(results)
    ensures |store| <= |store'| && store'[..|store|] == store && report.newItems == |store'| - |store|
    ensures forall k :: 0 <= k < |sources| ==> (results[k] == -1 <==> FetchFails(sources[k], env))
    ensures forall k :: 0 <= k < |sources| ==> results[k] >= -1
    ensures forall k :: 0 <= k < |sources| ==>
              sources'[k] == if results[k] >= 0 then sources[k].(lastRefresh := Some(env.now)) else sources[k]
    ensures UniqueKeys(store) ==> UniqueKeys(store')
    ensures Sweep(store', sources', results) == Fold(store, sources, |sources|, Refresher(env))
  {
    report := Report(|sources|, 0, 0, 0);
    store' := store;
    sources' := [];
    results := [];
    var i := 0;
    while i < |sources|
      invariant Reached(store, sources, env, i, report, store', sources', results)
    {
      var r := RefreshSource(store', sources[i], env);
      ReachedStep(store, sources, env, i, report, store', sources', results, r);
      report := Count(report, r.newItems);
      store' := r.store;
      sources' := sources' + [r.source];
      results := results + [r.newItems];
      i := i + 1;
    }
  }
}

=== FILE: list_controller.dfy ===
/**
  The pure rules of the list screens: creating and renaming a list (blank names
  refused, slugs kept unique), and replacing a list's source bindings with the
  submitted selection and its filter strings.

  The signed-in user is a number, 0 meaning nobody is signed in. The `lists`
  table is a map from id to row; `list_sources` is a sequence in table order.
 */
module ListController {
  import opened Wrappers
  import opened PhpStrings
  import opened Explode
  import opened ListFilter
  import opened Slugs

  datatype FeedList = FeedList(id: nat, userId: nat, name: String, slug: String, isPublic: bool)

  type Lists = map<nat, FeedList>

  function SlugsInUse(lists: Lists): set<String> {
    set id | id in lists :: lists[id].slug
  }

  /** The unique index on `lists.slug`. */
  predicate UniqueSlugs(lists: Lists) {
    forall a, b :: a in lists && b in lists && a != b ==> lists[a].slug != lists[b].slug
  }

  /** `trim($data['name'] ?? '')`. */
  function FormName(field: Option<String>): String {
    Trim(field.GetOr(""))
  }

  /** The lists after a form was handled, and whether a row was saved. */
  datatype Saved = Saved(lists: Lists, saved: bool)

  /** A slug that is not in use keeps the slugs unique when given to a list. */
  lemma InUse(lists: Lists)
    ensures forall id :: id in lists ==> lists[id].slug in SlugsInUse(lists)
  {
  }

  /** A slug no other list uses keeps the slugs unique when given to list `id`. */
  lemma FreshSlugKeepsUnique(lists: Lists, id: nat, row: FeedList)
    ensures UniqueSlugs(lists) && row.slug !in SlugsInUse(lists) ==> UniqueSlugs(lists[id := row])
  {
    InUse(lists);
  }

  /**
    `store`: a blank name (empty or "0" once trimmed) or a missing user saves
    nothing; otherwise a new list is saved under `newId` (the next auto-increment id)
    with the trimmed name and the slug `generateSlug` gives for it, which no other list uses.
   */
  function StoreList(lists: Lists, newId: nat, userId: nat, nameField: Option<String>, isPublic: bool): (r: Saved)
    requires newId !in lists
    ensures r.saved <==> Truthy(FormName(nameField)) && userId != 0
    ensures !r.saved ==> r.lists == lists
    ensures r.saved ==> && newId in r.lists && r.lists == lists[newId := r.lists[newId]]
                        && r.lists[newId] == FeedList(newId, userId, FormName(nameField), r.lists[newId].slug, isPublic)
                        && r.lists[newId].slug == GenerateSlug(FormName(nameField), SlugsInUse(lists))
                        && r.lists[newId].slug !in SlugsInUse(lists)
    ensures UniqueSlugs(lists) ==> UniqueSlugs(r.lists)
  {
    var name := FormName(nameField);
    if !Truthy(name) || userId == 0 then Saved(lists, false)
    else
      var row := FeedList(newId, userId, name, GenerateSlug(name, SlugsInUse(lists)), isPublic);
      FreshSlugKeepsUnique(lists, newId, row);
      Saved(lists[newId := row], true)
  }

  /** The list `id` exists and belongs to the signed-in user. */
  predicate Owns(lists: Lists, id: nat, userId: nat) {
    userId != 0 && id in lists && lists[id].userId == userId
  }

  /**
    The row update of `update` for list `id` and a name that is not blank: the
    slug is generated afresh only when the new name differs from the old one other
    than in letter case, and a fresh slug is not in use by any list, the renamed
    list included. No other list changes.
   */
  function Rename(lists: Lists, id: nat, name: String, isPublic: bool): (r: Lists)
    requires id in lists
    ensures r.Keys == lists.Keys
    ensures forall other :: other in lists && other != id ==> r[other] == lists[other]
    ensures r[id] == lists[id].(name := name, slug := r[id].slug, isPublic := isPublic)
    ensures Lower(name) == Lower(lists[id].name) ==> r[id].slug == lists[id].slug
    ensures Lower(name) != Lower(lists[id].name) ==>
              r[id].slug == GenerateSlug(name, SlugsInUse(lists)) && r[id].slug !in SlugsInUse(lists)
    ensures UniqueSlugs(lists) ==> UniqueSlugs(r)
  {
    var prev := lists[id];
    var slug := RenamedSlug(prev, name, SlugsInUse(lists));
    var row := prev.(name := name, slug := slug, isPublic := isPublic);
    KeptSlugKeepsUnique(lists, id, row);
    FreshSlugKeepsUnique(lists, id, row);
    lists[id := row]
  }

  /** The slug a renamed list ends up with, given the slugs in use. */
  function RenamedSlug(prev: FeedList, name: String, existing: set<String>): (slug: String)
    ensures Lower(name) == Lower(prev.name) ==> slug == prev.slug
    ensures Lower(name) != Lower(prev.name) ==> slug == GenerateSlug(name, existing) && slug !in existing
  {
    if Lower(name) != Lower(prev.name) then GenerateSlug(name, existing) else prev.slug
  }

  lemma KeptSlugKeepsUnique(lists: Lists, id: nat, row: FeedList)
    requires id in lists
    ensures UniqueSlugs(lists) && row.slug == lists[id].slug ==> UniqueSlugs(lists[id := row])
  {
  }

  /**
    `update`: only the owner may rename a list, and a blank name is refused; in
    both cases nothing changes. Otherwise the list is renamed as `Rename` says.
   */
  function UpdateList(lists: Lists, id: nat, userId: nat, nameField: Option<String>, isPublic: bool): (r: Saved)
    ensures r.saved <==> Owns(lists, id, userId) && Truthy(FormName(nameField))
    ensures !r.saved ==> r.lists == lists
    ensures r.saved ==> r.lists == Rename(lists, id, FormName(nameField), isPublic)
    ensures UniqueSlugs(lists) ==> UniqueSlugs(r.lists)
  {
    var name := FormName(nameField);
    if !Owns(lists, id, userId) || !Truthy(name) then Saved(lists, false)
    else Saved(Rename(lists, id, name, isPublic), true)
  }

  /**
    Renaming a list to a name that differs beyond letter case but normalises to the
    list's own slug moves the list to a suffixed slug: its current slug counts as taken.
   */
  lemma RenameToOwnBaseGetsSuffix(lists: Lists, id: nat, userId: nat, nameField: Option<String>, isPublic: bool)
    requires Owns(lists, id, userId) && Truthy(FormName(nameField))
    requires Lower(FormName(nameField)) != Lower(lists[id].name)
    requires SlugBase(FormName(nameField)) == lists[id].slug
    ensures var r := UpdateList(lists, id, userId, nameField, isPublic);
            r.lists[id].slug != lists[id].slug
            && exists k :: k >= 1 && r.lists[id].slug == Candidate(lists[id].slug, k)
  {
    InUse(lists);
  }

  // ---------------------------------------------------------------------------
  // updateSources
  // ---------------------------------------------------------------------------

  /** One submitted filter field: absent or null, a multi-select array, or a text input. */
  datatype FilterValue = Missing | Many(values: seq<String>) | Text(text: String)

  /** The four filter fields submitted for one source. */
  datatype FilterForm = FilterForm(
    authorWhitelist: FilterValue,
    authorBlacklist: FilterValue,
    categoryWhitelist: FilterValue,
    categoryBlacklist: FilterValue)

  /**
    `is_array($v) ? implode(',', $v) : (trim($v ?? '') ?: null)`: an array is stored
    as its comma join; a text is stored trimmed, or as null when it trims to "" or "0".
   */
  function NormaliseFilter(v: FilterValue): (r: Option<String>)
    ensures v.Many? ==> r == Some(Join(v.values, [',']))
    ensures !v.Many? ==> (r.None? <==> v.Missing? || !Truthy(Trim(v.text)))
    ensures !v.Many? && r.Some? ==> r.value == Trim(v.text) && IsTrimmed(r.value, PhpWhitespace)
  {
    match v
    case Many(values) => Some(Join(values, [',']))
    case Text(text) => if Truthy(Trim(text)) then Some(Trim(text)) else None
    case Missing => None
  }

  /**
    Round trip with the filter reader: an array of trimmed, comma-free names whose
    join is not "" or "0" is read back by the binding's `get*Array` as the same names.
   */
  lemma SelectedNamesRoundTrip(listId: nat, sid: nat, names: seq<String>)
    requires forall k :: 0 <= k < |names| ==> IsTrimmed(names[k], PhpWhitespace) && ',' !in names[k]
    requires Truthy(Join(names, [',']))
    ensures var f := NormaliseFilter(Many(names));
            ListSource(listId, sid, f, f, f, f).AuthorWhitelistArray() == names
            && ListSource(listId, sid, f, f, f, f).CategoryBlacklistArray() == names
  {
    TermsOfJoin(names);
  }

  /** The binding saved for one selected source; without a filter entry all four filters are null. */
  function NewBinding(listId: nat, sid: nat, filters: map<nat, FilterForm>): (b: ListSource)
    ensures b.listId == listId && b.sourceId == sid
    ensures sid !in filters ==> Unfiltered(b) && b.authorWhitelist.None? && b.authorBlacklist.None?
                                && b.categoryWhitelist.None? && b.categoryBlacklist.None?
    ensures sid in filters ==> && b.authorWhitelist == NormaliseFilter(filters[sid].authorWhitelist)
                               && b.authorBlacklist == NormaliseFilter(filters[sid].authorBlacklist)
                               && b.categoryWhitelist == NormaliseFilter(filters[sid].categoryWhitelist)
                               && b.categoryBlacklist == NormaliseFilter(filters[sid].categoryBlacklist)
  {
    if sid in filters then
      var f := filters[sid];
      ListSource(listId, sid, NormaliseFilter(f.authorWhitelist), NormaliseFilter(f.authorBlacklist),
                 NormaliseFilter(f.categoryWhitelist), NormaliseFilter(f.categoryBlacklist))
    else ListSource(listId, sid, None, None, None, None)
  }

  /** The bindings the selection asks for, in selection order. */
  function Wanted(listId: nat, selected: seq<nat>, filters: map<nat, FilterForm>): (ws: seq<ListSource>)
    ensures |ws| == |selected|
    ensures forall k :: 0 <= k < |ws| ==> ws[k] == NewBinding(listId, selected[k], filters)
  {
    seq(|selected|, k requires 0 <= k < |selected| => NewBinding(listId, selected[k], filters))
  }

  /** The bindings of list `listId`, in table order. */
  function Of(bs: seq<ListSource>, listId: nat): seq<ListSource> {
    if |bs| == 0 then []
    else Of(bs[..|bs| - 1], listId) + (if bs[|bs| - 1].listId == listId then [bs[|bs| - 1]] else [])
  }

  /** The bindings of every other list, in table order. */
  function Others(bs: seq<ListSource>, listId: nat): (r: seq<ListSource>)
    ensures forall k :: 0 <= k < |r| ==> r[k].listId != listId
  {
    if |bs| == 0 then []
    else Others(bs[..|bs| - 1], listId) + (if bs[|bs| - 1].listId != listId then [bs[|bs| - 1]] else [])
  }

  lemma OfNone(bs: seq<ListSource>, listId: nat)
    requires forall k :: 0 <= k < |bs| ==> bs[k].listId != listId
    ensures Of(bs, listId) == []
    ensures Others(bs, listId) == bs
  {
    if |bs| > 0 {
      OfNone(bs[..|bs| - 1], listId);
      assert bs == bs[..|bs| - 1] + [bs[|bs| - 1]];
    }
  }

  lemma AppendTo(bs: seq<ListSource>, b: ListSource, listId: nat)
    ensures Of(bs + [b], listId) == Of(bs, listId) + (if b.listId == listId then [b] else [])
    ensures Others(bs + [b], listId) == Others(bs, listId) + (if b.listId != listId then [b] else [])
  {
    assert (bs + [b])[..|bs|] == bs;
  }

  /** A binding for list `listId` and source `sid` is stored: the unique index on `(list_id, source_id)`. */
  predicate HasBinding(bs: seq<ListSource>, listId: nat, sid: nat) {
    exists k :: 0 <= k < |bs| && bs[k].listId == listId && bs[k].sourceId == sid
  }

  predicate NoRepeats(selected: seq<nat>) {
    forall i, j :: 0 <= i < j < |selected| ==> selected[i] != selected[j]
  }

  datatype Status = Rejected | Replaced | Aborted

  /**
    `updateSources`: for the owner, every binding of the list is deleted and one
    binding per selected source is inserted, in selection order. A source selected
    twice hits the unique index on its second insert; the request then ends with
    the bindings inserted so far. Other lists' bindings are never touched.
   */
  method UpdateSources(bindings: seq<ListSource>, lists: Lists, listId: nat, userId: nat,
                       selected: seq<nat>, filters: map<nat, FilterForm>)
    returns (r: seq<ListSource>, status: Status)
    ensures status == Rejected <==> !Owns(lists, listId, userId)
    ensures status == Rejected ==> r == bindings
    ensures status != Rejected ==> Others(r, listId) == Others(bindings, listId)
    ensures status == Replaced <==> Owns(lists, listId, userId) && NoRepeats(selected)
    ensures status == Replaced ==> Of(r, listId) == Wanted(listId, selected, filters)
    ensures status == Aborted ==> exists n :: 0 < n < |selected| && selected[n] in selected[..n]
                                             && NoRepeats(selected[..n])
                                             && Of(r, listId) == Wanted(listId, selected[..n], filters)
  {
    if !Owns(lists, listId, userId) {
      return bindings, Rejected;
    }
    r := Others(bindings, listId);
    InsertStart(bindings, listId, selected, filters);
    var i := 0;
    while i < |selected|
      invariant 0 <= i <= |selected|
      invariant Inserted(bindings, r, listId, selected, i, filters)
    {
      var sid := selected[i];
      if HasBinding(r, listId, sid) {
        InsertClash(bindings, r, listId, selected, i, filters);
        status := Aborted;
        return;
      }
      var b := NewBinding(listId, sid, filters);
      InsertStep(bindings, r, listId, selected, i, filters);
      r := r + [b];
      i := i + 1;
    }
    assert selected[..i] == selected;
    status := Replaced;
  }

  /**
    After the delete and the first `i` inserts: the other lists' bindings are as they
    were, the list holds the bindings of `selected[..i]` in order, those sources are
    the ones bound, and none of them was selected twice.
   */
  ghost predicate Inserted(bindings: seq<ListSource>, r: seq<ListSource>, listId: nat, selected: seq<nat>,
                     i: nat, filters: map<nat, FilterForm>)
    requires i <= |selected|
  {
    && Others(r, listId) == Others(bindings, listId)
    && Of(r, listId) == Wanted(listId, selected[..i], filters)
    && (forall s :: HasBinding(r, listId, s) <==> s in selected[..i])
    && NoRepeats(selected[..i])
  }

  lemma InsertStart(bindings: seq<ListSource>, listId: nat, selected: seq<nat>, filters: map<nat, FilterForm>)
    ensures Inserted(bindings, Others(bindings, listId), listId, selected, 0, filters)
  {
    OfNone(Others(bindings, listId), listId);
    OthersIdempotent(bindings, listId);
  }

  lemma InsertStep(bindings: seq<ListSource>, r: seq<ListSource>, listId: nat, selected: seq<nat>,
                   i: nat, filters: map<nat, FilterForm>)
    requires i < |selected| && Inserted(bindings, r, listId, selected, i, filters)
    requires !HasBinding(r, listId, selected[i])
    ensures Inserted(bindings, r + [NewBinding(listId, selected[i], filters)], listId, selected, i + 1, filters)
  {
    var b := NewBinding(listId, selected[i], filters);
    AppendTo(r, b, listId);
    WantedSnoc(listId, selected, i, filters);
    BoundSnoc(r, b, listId, selected, i);
    NoRepeatsSnoc(selected, i);
  }

  lemma WantedSnoc(listId: nat, selected: seq<nat>, i: nat, filters: map<nat, FilterForm>)
    requires i < |selected|
    ensures Wanted(listId, selected[..i + 1], filters)
            == Wanted(listId, selected[..i], filters) + [NewBinding(listId, selected[i], filters)]
  {
  }

  lemma BoundSnoc(r: seq<ListSource>, b: ListSource, listId: nat, selected: seq<nat>, i: nat)
    requires i < |selected| && b.listId == listId && b.sourceId == selected[i]
    requires forall s :: HasBinding(r, listId, s) <==> s in selected[..i]
    ensures forall s :: HasBinding(r + [b], listId, s) <==> s in selected[..i + 1]
  {
    BindingAdded(r, b, listId);
    assert selected[..i + 1] == selected[..i] + [selected[i]];
  }

  lemma NoRepeatsSnoc(selected: seq<nat>, i: nat)
    requires i < |selected| && NoRepeats(selected[..i]) && selected[i] !in selected[..i]
    ensures NoRepeats(selected[..i + 1])
  {
  }

  lemma InsertClash(bindings: seq<ListSource>, r: seq<ListSource>, listId: nat, selected: seq<nat>,
                    i: nat, filters: map<nat, FilterForm>)
    requires i < |selected| && Inserted(bindings, r, listId, selected, i, filters)
    requires HasBinding(r, listId, selected[i])
    ensures 0 < i && selected[i] in selected[..i] && !NoRepeats(selected)
  {
    var k :| 0 <= k < i && selected[..i][k] == selected[i];
    assert selected[k] == selected[i];
  }

  lemma OthersIdempotent(bs: seq<ListSource>, listId: nat)
    ensures Others(Others(bs, listId), listId) == Others(bs, listId)
  {
    OfNone(Others(bs, listId), listId);
  }

  lemma BindingAdded(bs: seq<ListSource>, b: ListSource, listId: nat)
    requires b.listId == listId
    ensures forall s :: HasBinding(bs + [b], listId, s) <==> HasBinding(bs, listId, s) || s == b.sourceId
  {
    forall s | HasBinding(bs, listId, s)
      ensures HasBinding(bs + [b], listId, s)
    {
      var k :| 0 <= k < |bs| && bs[k].listId == listId && bs[k].sourceId == s;
      assert (bs + [b])[k] == bs[k];
    }
    assert (bs + [b])[|bs|] == b;
  }
}

=== FILE: list_filter.dfy ===
/**
  A list binding (`list_sources` row) and its four-stage author/category filter.
  Matching is `stripos`: ASCII case-insensitive substring search, where an empty
  term (left by a stray comma) is found in every string.
 */
module ListFilter {
  import opened Wrappers
  import opened PhpStrings
  import opened Explode
  import opened FeedItems

  datatype ListSource = ListSource(
    listId: nat,
    sourceId: nat,
    authorWhitelist: Option<String>,
    authorBlacklist: Option<String>,
    categoryWhitelist: Option<String>,
    categoryBlacklist: Option<String>)
  {
    function AuthorWhitelistArray(): seq<String> { Terms(authorWhitelist) }
    function AuthorBlacklistArray(): seq<String> { Terms(authorBlacklist) }
    function CategoryWhitelistArray(): seq<String> { Terms(categoryWhitelist) }
    function CategoryBlacklistArray(): seq<String> { Terms(categoryBlacklist) }
  }

  /** `$item->author ?? ''`. */
  function AuthorText(item: FeedItem): String {
    item.author.GetOr("")
  }

  /** Whether some item category contains some term: the nested loops of the category stages. */
  function AnyCategoryMatches(cats: seq<String>, terms: seq<String>): (found: bool)
    ensures found <==> exists m, k :: 0 <= m < |cats| && 0 <= k < |terms| && IContains(cats[m], terms[k])
  {
    if |cats| == 0 then false
    else if ContainsAny(cats[0], terms) then true
    else
      var rest := AnyCategoryMatches(cats[1..], terms);
      assert forall m :: 1 <= m < |cats| ==> cats[m] == cats[1..][m - 1];
      rest
  }

  /** The four stages read declaratively, on an author, its categories and the four term lists. */
  ghost predicate AdmitsTerms(author: String, cats: seq<String>, aw: seq<String>, ab: seq<String>,
                              cw: seq<String>, cb: seq<String>) {
    && (|aw| > 0 ==> exists k :: 0 <= k < |aw| && IContains(author, aw[k]))
    && (forall k :: 0 <= k < |ab| ==> !IContains(author, ab[k]))
    && (|cw| > 0 ==> exists m, k :: 0 <= m < |cats| && 0 <= k < |cw| && IContains(cats[m], cw[k]))
    && (forall m, k :: 0 <= m < |cats| && 0 <= k < |cb| ==> !IContains(cats[m], cb[k]))
  }

  /** All four stages hold for the item under the binding's filter strings. */
  ghost predicate Admits(ls: ListSource, item: FeedItem) {
    AdmitsTerms(AuthorText(item), CategoriesArray(item), ls.AuthorWhitelistArray(), ls.AuthorBlacklistArray(),
                ls.CategoryWhitelistArray(), ls.CategoryBlacklistArray())
  }

  /** The stages of `filterItem` in turn: author whitelist, author blacklist, category whitelist, category blacklist. */
  function Stages(author: String, cats: seq<String>, aw: seq<String>, ab: seq<String>,
                  cw: seq<String>, cb: seq<String>): (pass: bool)
    ensures pass <==> AdmitsTerms(author, cats, aw, ab, cw, cb)
  {
    && (aw == [] || ContainsAny(author, aw))
    && !ContainsAny(author, ab)
    && (cw == [] || AnyCategoryMatches(cats, cw))
    && !AnyCategoryMatches(cats, cb)
  }

  /** `ListSource::filterItem`: an item passes exactly when all four stages admit it. */
  function FilterItem(ls: ListSource, item: FeedItem): (pass: bool)
    ensures pass <==> Admits(ls, item)
  {
    Stages(AuthorText(item), CategoriesArray(item), ls.AuthorWhitelistArray(), ls.AuthorBlacklistArray(),
           ls.CategoryWhitelistArray(), ls.CategoryBlacklistArray())
  }

  predicate Unfiltered(ls: ListSource) {
    Empty(ls.authorWhitelist) && Empty(ls.authorBlacklist)
    && Empty(ls.categoryWhitelist) && Empty(ls.categoryBlacklist)
  }

  /** A binding whose four filter strings are all empty lets every item through. */
  lemma UnfilteredPassesAll(ls: ListSource, item: FeedItem)
    requires Unfiltered(ls)
    ensures FilterItem(ls, item)
  {
  }

  /** An author containing a blacklist term is rejected even when it also matches the whitelist. */
  lemma AuthorBlacklistWins(ls: ListSource, item: FeedItem, k: nat)
    requires k < |ls.AuthorBlacklistArray()|
    requires IContains(AuthorText(item), ls.AuthorBlacklistArray()[k])
    ensures !FilterItem(ls, item)
  {
  }

  /** With a category whitelist in force, an item without categories is rejected. */
  lemma CategoryWhitelistNeedsCategories(ls: ListSource, item: FeedItem)
    requires !Empty(ls.categoryWhitelist)
    requires Empty(item.categories)
    ensures !FilterItem(ls, item)
  {
  }

  /**
    With only an author whitelist `"Alice"`, an item passes exactly when its author
    (null read as "") contains "alice" case-insensitively.
   */
  lemma AliceWhitelist(item: FeedItem)
    ensures FilterItem(ListSource(0, 0, Some("Alice"), None, None, None), item)
        <==> Contains(Lower(AuthorText(item)), "alice")
  {
    var ls := ListSource(0, 0, Some("Alice"), None, None, None);
    SingleTerm("Alice");
    LowerAlice();
    WhitelistOnly(ls, item);
    assert ContainsAny(AuthorText(item), ["Alice"]) == IContains(AuthorText(item), "Alice");
  }

  /** With only a non-empty author whitelist, the filter is the whitelist stage alone. */
  lemma WhitelistOnly(ls: ListSource, item: FeedItem)
    requires !Empty(ls.authorWhitelist)
    requires ls.authorBlacklist.None? && ls.categoryWhitelist.None? && ls.categoryBlacklist.None?
    ensures FilterItem(ls, item) == ContainsAny(AuthorText(item), ls.AuthorWhitelistArray())
  {
  }

  /** A filter string without commas or surrounding blanks is its own single term. */
  lemma SingleTerm(s: String)
    requires Truthy(s) && ',' !in s && IsTrimmed(s, PhpWhitespace)
    ensures Terms(Some(s)) == [s]
  {
    assert Split(s, ',') == [s];
    TrimWithTrimmed(s, PhpWhitespace);
    assert Pieces(s) == TrimAll([s]);
  }

  lemma LowerAlice()
    ensures Lower("Alice") == "alice"
  {
    var r := Lower("Alice");
    assert r[0] == 'a' && r[1] == 'l' && r[2] == 'i' && r[3] == 'c' && r[4] == 'e';
  }

  /**
    A stray trailing comma in the author blacklist adds the empty term, which
    `stripos` finds in every author (null included): such a binding rejects every item.
   */
  lemma StrayCommaAuthorBlacklistRejectsAll(ls: ListSource, item: FeedItem, t: String)
    requires ls.authorBlacklist == Some(t + [','])
    ensures !FilterItem(ls, item)
  {
    TrailingCommaEmptyTerm(t);
    var ab := ls.AuthorBlacklistArray();
    EmptyNeedleFound(Lower(AuthorText(item)));
    assert IContains(AuthorText(item), ab[|ab| - 1]);
  }

  /** The same stray comma in the category blacklist rejects every item that has a category. */
  lemma StrayCommaCategoryBlacklistRejectsCategorised(ls: ListSource, item: FeedItem, t: String)
    requires ls.categoryBlacklist == Some(t + [','])
    requires !Empty(item.categories)
    ensures !FilterItem(ls, item)
  {
    TrailingCommaEmptyTerm(t);
    var cb := ls.CategoryBlacklistArray();
    var cats := CategoriesArray(item);
    EmptyNeedleFound(Lower(cats[0]));
    assert IContains(cats[0], cb[|cb| - 1]);
  }
}

=== FILE: php_strings.dfy ===
/**
  The PHP string primitives the feed core relies on, on strings modelled as
  sequences of characters (one character stands for one byte; case folding is
  ASCII-only, as `strtolower` does it in PHP 8).
 */
module PhpStrings {
  import opened Wrappers

  type String = seq<char>

  /** `strtolower` on one character. */
  function LowerChar(c: char): char {
    if 'A' <= c <= 'Z' then (c as int + 32) as char else c
  }

  function Lower(s: String): (r: String)
    ensures |r| == |s|
    ensures forall i :: 0 <= i < |s| ==> r[i] == LowerChar(s[i])
  {
    seq(|s|, i requires 0 <= i < |s| => LowerChar(s[i]))
  }

  predicate HasUpper(s: String) {
    exists i :: 0 <= i < |s| && 'A' <= s[i] <= 'Z'
  }

  /** Lower-casing changes nothing in a string without upper-case letters. */
  lemma LowerNoUpper(s: String)
    requires !HasUpper(s)
    ensures Lower(s) == s
  {
  }

  /** `str_starts_with($s, $p)`: case-sensitive prefix test. */
  predicate StartsWith(s: String, p: String) {
    |p| <= |s| && s[..|p|] == p
  }

  predicate OccursAt(s: String, sub: String, i: int) {
    0 <= i && i + |sub| <= |s| && s[i..i + |sub|] == sub
  }

  /** `str_contains($s, $sub)`; PHP 8 finds the empty string in every string. */
  predicate Contains(s: String, sub: String) {
    exists i :: 0 <= i <= |s| - |sub| && OccursAt(s, sub, i)
  }

  /** `stripos($hay, $needle) !== false` with ASCII case folding. */
  predicate IContains(hay: String, needle: String) {
    Contains(Lower(hay), Lower(needle))
  }

  lemma EmptyNeedleFound(s: String)
    ensures Contains(s, [])
  {
    assert OccursAt(s, [], 0);
  }

  /** A needle holding a character the haystack lacks cannot occur in it. */
  lemma MissingCharNotContained(s: String, sub: String, c: char)
    requires c in sub && c !in s
    ensures !Contains(s, sub)
  {
  }

  /** Whether some needle is found in `text` by `stripos`, trying the needles in order. */
  function ContainsAny(text: String, needles: seq<String>): (found: bool)
    ensures found <==> exists k :: 0 <= k < |needles| && IContains(text, needles[k])
  {
    if |needles| == 0 then false
    else if IContains(text, needles[0]) then true
    else
      var rest := ContainsAny(text, needles[1..]);
      assert forall k :: 1 <= k < |needles| ==> needles[k] == needles[1..][k - 1];
      rest
  }

  /** The characters PHP's `trim` strips by default: " \t\n\r\0\x0B". */
  const PhpWhitespace: set<char> := {' ', '\t', '\n', '\r', 0 as char, 11 as char}

  /** `ltrim($s, $cut)`. */
  function TrimLeft(s: String, cut: set<char>): (r: String)
    ensures |r| <= |s| && r == s[|s| - |r|..]
    ensures |r| > 0 ==> r[0] !in cut
    ensures forall i :: 0 <= i < |s| - |r| ==> s[i] in cut
  {
    if |s| > 0 && s[0] in cut then
      var r := TrimLeft(s[1..], cut);
      assert forall i :: 1 <= i < |s| ==> s[i] == s[1..][i - 1];
      r
    else s
  }

  /** `rtrim($s, $cut)`. */
  function TrimRight(s: String, cut: set<char>): (r: String)
    ensures |r| <= |s| && r == s[..|r|]
    ensures |r| > 0 ==> r[|r| - 1] !in cut
    ensures forall i :: |r| <= i < |s| ==> s[i] in cut
  {
    if |s| > 0 && s[|s| - 1] in cut then TrimRight(s[..|s| - 1], cut) else s
  }

  predicate IsTrimmed(s: String, cut: set<char>) {
    |s| == 0 || (s[0] !in cut && s[|s| - 1] !in cut)
  }

  /**
    `r` is `s[i..i + |r|]` and everything of `s` before and after it is a cut
    character: `r` is what remains after removing cut characters from both ends.
   */
  predicate TrimmedAt(s: String, cut: set<char>, r: String, i: int) {
    && 0 <= i <= |s| - |r| && r == s[i..i + |r|]
    && (forall k :: 0 <= k < i ==> s[k] in cut)
    && (forall k :: i + |r| <= k < |s| ==> s[k] in cut)
  }

  /**
    `trim($s, $cut)`: the piece of `s` left after removing cut characters from
    both ends; only cut characters are removed, and none is left at either end.
   */
  function TrimWith(s: String, cut: set<char>): (r: String)
    ensures IsTrimmed(r, cut)
    ensures Contains(s, r)
    ensures exists i :: TrimmedAt(s, cut, r, i)
  {
    var l := TrimLeft(s, cut);
    var r := TrimRight(l, cut);
    TrimEnds(s, cut, l, r);
    assert OccursAt(s, r, |s| - |l|);
    r
  }

  /** A cut prefix of `s` followed by a cut suffix of what remains leaves `r` trimmed at `|s| - |l|`. */
  lemma TrimEnds(s: String, cut: set<char>, l: String, r: String)
    requires |l| <= |s| && l == s[|s| - |l|..]
    requires forall k :: 0 <= k < |s| - |l| ==> s[k] in cut
    requires |r| <= |l| && r == l[..|r|]
    requires forall k :: |r| <= k < |l| ==> l[k] in cut
    ensures TrimmedAt(s, cut, r, |s| - |l|)
  {
    var i := |s| - |l|;
    assert r == s[i..i + |r|];
    ShiftedCut(s, cut, l, i, |r|);
  }

  /** Cut characters at the end of the suffix `l == s[i..]` are cut characters of `s`. */
  lemma ShiftedCut(s: String, cut: set<char>, l: String, i: nat, n: nat)
    requires i <= |s| && l == s[i..] && n <= |l|
    requires forall j :: n <= j < |l| ==> l[j] in cut
    ensures forall k :: i + n <= k < |s| ==> s[k] in cut
  {
    forall k | i + n <= k < |s|
      ensures s[k] in cut
    {
      assert s[k] == l[k - i];
    }
  }

  /** `trim($s)` with PHP's default character set. */
  function Trim(s: String): (r: String)
    ensures IsTrimmed(r, PhpWhitespace)
  {
    TrimWith(s, PhpWhitespace)
  }

  /** Trimming a string that is already trimmed returns it unchanged. */
  lemma TrimWithTrimmed(s: String, cut: set<char>)
    requires IsTrimmed(s, cut)
    ensures TrimWith(s, cut) == s
  {
  }

  /** `trim` is idempotent. */
  lemma TrimIdempotent(s: String, cut: set<char>)
    ensures TrimWith(TrimWith(s, cut), cut) == TrimWith(s, cut)
  {
    TrimWithTrimmed(TrimWith(s, cut), cut);
  }

  /** A blank put in front of a trimmed string is trimmed away again. */
  lemma TrimLeadingBlank(s: String)
    requires IsTrimmed(s, PhpWhitespace)
    ensures Trim([' '] + s) == s
  {
    assert ([' '] + s)[1..] == s;
    assert TrimLeft([' '] + s, PhpWhitespace) == TrimLeft(s, PhpWhitespace);
  }

  /** The first `n` elements: `substr($s, 0, $n)` on strings, `array_slice($a, 0, $n)` on lists. */
  function Truncate<T>(s: seq<T>, n: nat): (r: seq<T>)
    ensures |r| <= n && r <= s
    ensures |s| <= n ==> r == s
    ensures |s| > n ==> |r| == n
  {
    if |s| <= n then s else s[..n]
  }

  /** PHP truthiness of a string: everything except "" and "0". */
  predicate Truthy(s: String) {
    s != "" && s != "0"
  }

  /** PHP's `empty($x)` for a nullable string. */
  predicate Empty(o: Option<String>) {
    o.None? || !Truthy(o.value)
  }
}

=== FILE: slugs.dfy ===
/**
  `FeedList::generateSlug`: a list name is lower-cased, every character outside
  `[a-z0-9-]` becomes a dash, dash runs shrink to one dash and dashes at either end
  go; a taken slug then gets the smallest free numeric suffix `-1`, `-2`, ...
  The slugs already in use are a finite set.
 */
module Slugs {
  import opened PhpStrings
  import opened Decimal

  predicate SlugChar(c: char) {
    'a' <= c <= 'z' || '0' <= c <= '9' || c == '-'
  }

  predicate SlugChars(s: String) {
    forall i :: 0 <= i < |s| ==> SlugChar(s[i])
  }

  /** No two dashes in a row. */
  predicate NoDoubleDash(s: String) {
    forall i :: 0 <= i < |s| - 1 ==> !(s[i] == '-' && s[i + 1] == '-')
  }

  /** `preg_replace('/[^a-z0-9-]/', '-', $s)`. */
  function Dashify(s: String): (r: String)
    ensures |r| == |s| && SlugChars(r)
    ensures forall i :: 0 <= i < |s| ==> (SlugChar(s[i]) <==> r[i] == s[i])
    ensures forall i :: 0 <= i < |s| && !SlugChar(s[i]) ==> r[i] == '-'
  {
    seq(|s|, i requires 0 <= i < |s| => if SlugChar(s[i]) then s[i] else '-')
  }

  /** The string without its dashes. */
  function Undash(s: String): String {
    if |s| == 0 then [] else (if s[0] == '-' then [] else [s[0]]) + Undash(s[1..])
  }

  /**
    Where the dashes of `s` stand relative to its other characters: for each non-dash
    character, whether a dash comes right before it, and last whether `s` ends in a
    dash. `afterDash` says whether a dash came before `s`. A run of dashes and a single
    dash leave the same marks.
   */
  function DashMarks(s: String, afterDash: bool): (m: seq<bool>)
    ensures |m| >= 1
    decreases |s|
  {
    if |s| == 0 then [afterDash]
    else if s[0] == '-' then DashMarks(s[1..], true)
    else [afterDash] + DashMarks(s[1..], false)
  }

  /**
    `preg_replace('/-+/', '-', $s)`: every run of dashes becomes one dash. Only
    dashes are removed, the first character is kept, no two dashes stay adjacent, and
    a dash stands wherever `s` has a run of them (`CollapseUnique` shows these facts
    determine the result).
   */
  function Collapse(s: String): (r: String)
    ensures |r| <= |s| && (|s| > 0 ==> |r| > 0 && r[0] == s[0])
    ensures forall i :: 0 <= i < |r| ==> r[i] in s
    ensures NoDoubleDash(r)
    ensures Undash(r) == Undash(s)
    ensures DashMarks(r, false) == DashMarks(s, false) && DashMarks(r, true) == DashMarks(s, true)
    decreases |s|
  {
    if |s| <= 1 then s
    else
      var rest := Collapse(s[1..]);
      assert forall i :: 1 <= i < |s| ==> s[i] == s[1..][i - 1];
      if s[0] == '-' && s[1] == '-' then
        assert DashMarks(rest, false) == DashMarks(rest[1..], true) == DashMarks(rest, true);
        rest
      else
        var r := [s[0]] + rest;
        assert r[1..] == rest;
        r
  }

  /**
    A string without adjacent dashes is determined by its non-dash characters and its
    dash marks; with `Collapse`'s contract, the collapsed string is the only such one.
   */
  lemma {:induction false} MarksDetermine(a: String, b: String, f: bool)
    requires NoDoubleDash(a) && NoDoubleDash(b)
    requires f ==> (|a| == 0 || a[0] != '-') && (|b| == 0 || b[0] != '-')
    requires Undash(a) == Undash(b) && DashMarks(a, f) == DashMarks(b, f)
    ensures a == b
    decreases |a| + |b|
  {
    if |a| > 0 && |b| > 0 {
      if a[0] == '-' && b[0] == '-' {
        assert Undash(a) == Undash(a[1..]) && Undash(b) == Undash(b[1..]);
        MarksDetermine(a[1..], b[1..], true);
        assert a == [a[0]] + a[1..] && b == [b[0]] + b[1..];
      } else if a[0] != '-' && b[0] != '-' {
        assert Undash(a) == [a[0]] + Undash(a[1..]) && Undash(b) == [b[0]] + Undash(b[1..]);
        assert a[0] == Undash(a)[0] == b[0];
        assert Undash(a[1..]) == Undash(a)[1..] == Undash(b[1..]);
        assert DashMarks(a[1..], false) == DashMarks(a, f)[1..];
        assert DashMarks(b[1..], false) == DashMarks(b, f)[1..];
        MarksDetermine(a[1..], b[1..], false);
        assert a == [a[0]] + a[1..] && b == [b[0]] + b[1..];
      } else if a[0] == '-' {
        DashLeadsMark(a);
      } else {
        DashLeadsMark(b);
      }
    } else if |a| > 0 {
      OneSided(a);
    } else if |b| > 0 {
      OneSided(b);
    }
  }

  /** A string without adjacent dashes that starts with a dash marks a dash first. */
  lemma DashLeadsMark(s: String)
    requires |s| > 0 && s[0] == '-' && NoDoubleDash(s)
    ensures DashMarks(s, false)[0] && DashMarks(s, true)[0]
  {
    if |s| > 1 {
      assert s[1] != '-';
    }
  }

  /** A non-empty string without adjacent dashes has a non-dash character or marks a dash first. */
  lemma OneSided(s: String)
    requires |s| > 0 && NoDoubleDash(s)
    ensures Undash(s) != [] || (s[0] == '-' && DashMarks(s, false)[0])
  {
    if s[0] == '-' {
      DashLeadsMark(s);
    } else {
      assert Undash(s) == [s[0]] + Undash(s[1..]);
    }
  }

  /** `Collapse(s)` is the one string without adjacent dashes that keeps the non-dash characters and the dash marks of `s`. */
  lemma CollapseUnique(s: String, r: String)
    requires NoDoubleDash(r) && Undash(r) == Undash(s) && DashMarks(r, false) == DashMarks(s, false)
    ensures r == Collapse(s)
  {
    MarksDetermine(r, Collapse(s), false);
  }

  /** A string without adjacent dashes is left alone by `Collapse`. */
  lemma {:induction false} CollapseFixed(s: String)
    requires NoDoubleDash(s)
    ensures Collapse(s) == s
  {
    if |s| > 1 {
      assert NoDoubleDash(s[1..]);
      CollapseFixed(s[1..]);
    }
  }

  /** A contiguous piece keeps the slug alphabet and the absence of adjacent dashes. */
  lemma PieceKeepsShape(s: String, r: String)
    requires Contains(s, r) && SlugChars(s) && NoDoubleDash(s)
    ensures SlugChars(r) && NoDoubleDash(r)
  {
    var a :| 0 <= a <= |s| - |r| && OccursAt(s, r, a);
    assert forall i :: 0 <= i < |r| ==> r[i] == s[a + i];
  }

  const Dash: set<char> := {'-'}

  /**
    The slug before de-duplication: `trim(preg_replace('/-+/', '-', preg_replace('/[^a-z0-9-]/', '-', strtolower(trim($name)))), '-')`.
   */
  function SlugBase(name: String): (r: String)
    ensures SlugChars(r)
    ensures NoDoubleDash(r)
    ensures |r| == 0 || (r[0] != '-' && r[|r| - 1] != '-')
  {
    var c := Collapse(Dashify(Lower(Trim(name))));
    var r := TrimWith(c, Dash);
    PieceKeepsShape(c, r);
    r
  }

  /** A slug-shaped string: slug characters, no adjacent dashes, no dash at either end. */
  predicate IsSlug(s: String) {
    SlugChars(s) && NoDoubleDash(s) && (|s| == 0 || (s[0] != '-' && s[|s| - 1] != '-'))
  }

  lemma SlugNoBlankEnds(b: String)
    requires SlugChars(b)
    ensures IsTrimmed(b, PhpWhitespace)
  {
    if |b| > 0 {
      assert SlugChar(b[0]) && SlugChar(b[|b| - 1]);
    }
  }

  lemma SlugLowerCase(b: String)
    requires SlugChars(b)
    ensures Lower(b) == b
  {
    assert !HasUpper(b) by {
      forall i | 0 <= i < |b|
        ensures !('A' <= b[i] <= 'Z')
      {
        assert SlugChar(b[i]);
      }
    }
    LowerNoUpper(b);
  }

  /** Every step of the normalisation leaves a slug as it is. */
  lemma SlugFixed(b: String)
    requires IsSlug(b)
    ensures SlugBase(b) == b
  {
    SlugNoBlankEnds(b);
    TrimWithTrimmed(b, PhpWhitespace);
    SlugLowerCase(Trim(b));
    DashifySlug(Lower(Trim(b)));
    CollapseFixed(b);
    assert IsTrimmed(b, Dash);
    TrimWithTrimmed(b, Dash);
  }

  lemma DashifySlug(b: String)
    requires SlugChars(b)
    ensures Dashify(b) == b
  {
  }

  /** Normalising a normalised slug changes nothing. */
  lemma SlugBaseIdempotent(name: String)
    ensures SlugBase(SlugBase(name)) == SlugBase(name)
  {
    SlugFixed(SlugBase(name));
  }

  predicate Letters(s: String) {
    forall i :: 0 <= i < |s| ==> 'a' <= s[i] <= 'z' || 'A' <= s[i] <= 'Z'
  }

  /** Two words of letters separated by a space, such as "Hello World", give `hello-world`. */
  lemma TwoWordSlug(a: String, b: String)
    requires |a| > 0 && |b| > 0 && Letters(a) && Letters(b)
    ensures SlugBase(a + " " + b) == Lower(a) + "-" + Lower(b)
  {
    var name := a + " " + b;
    var d := Lower(a) + "-" + Lower(b);
    assert name[0] == a[0] && name[|name| - 1] == b[|b| - 1];
    TrimWithTrimmed(name, PhpWhitespace);
    TwoWordDashed(a, b);
    TwoWordShape(a, b);
    CollapseFixed(d);
    TrimWithTrimmed(d, Dash);
  }

  lemma TwoWordDashed(a: String, b: String)
    requires Letters(a) && Letters(b)
    ensures Dashify(Lower(a + " " + b)) == Lower(a) + "-" + Lower(b)
  {
    var name := a + " " + b;
    var d := Lower(a) + "-" + Lower(b);
    forall i | 0 <= i < |name|
      ensures Dashify(Lower(name))[i] == d[i]
    {
      if i < |a| {
        assert name[i] == a[i];
      } else if i > |a| {
        assert name[i] == b[i - |a| - 1];
      }
    }
  }

  lemma TwoWordShape(a: String, b: String)
    requires |a| > 0 && |b| > 0 && Letters(a) && Letters(b)
    ensures NoDoubleDash(Lower(a) + "-" + Lower(b)) && IsTrimmed(Lower(a) + "-" + Lower(b), Dash)
  {
    var d := Lower(a) + "-" + Lower(b);
    forall i | 0 <= i < |d| - 1
      ensures !(d[i] == '-' && d[i + 1] == '-')
    {
      if i < |a| {
        assert d[i] == LowerChar(a[i]);
      } else {
        assert d[i + 1] == LowerChar(b[i - |a|]);
      }
    }
    assert d[0] == LowerChar(a[0]) && d[|d| - 1] == LowerChar(b[|b| - 1]);
  }

  /** The `k`-th candidate: the base itself, then `base-1`, `base-2`, ... */
  function Candidate(base: String, k: nat): String {
    if k == 0 then base else base + "-" + NatToString(k)
  }

  /** Different counters give different candidates. */
  lemma CandidateInjective(base: String, j: nat, k: nat)
    requires Candidate(base, j) == Candidate(base, k)
    ensures j == k
  {
    if j > 0 && k > 0 {
      var cj := Candidate(base, j);
      var ck := Candidate(base, k);
      assert cj[|base| + 1..] == NatToString(j);
      assert ck[|base| + 1..] == NatToString(k);
      NatToStringInjective(j, k);
    }
  }

  /** The candidates below `k`, the base included. */
  function Candidates(base: String, k: nat): set<String> {
    set j | 0 <= j < k :: Candidate(base, j)
  }

  /** There are `k` distinct candidates below `k`. */
  lemma {:induction false} CandidatesSize(base: String, k: nat)
    ensures |Candidates(base, k)| == k
    decreases k
  {
    if k > 0 {
      CandidatesSize(base, k - 1);
      CandidatesSnoc(base, k - 1);
      CandidateNew(base, k - 1);
    } else {
      assert Candidates(base, k) == {};
    }
  }

  lemma CandidatesSnoc(base: String, k: nat)
    ensures Candidates(base, k + 1) == Candidates(base, k) + {Candidate(base, k)}
  {
  }

  lemma CandidateNew(base: String, k: nat)
    ensures Candidate(base, k) !in Candidates(base, k)
  {
    if Candidate(base, k) in Candidates(base, k) {
      var j :| 0 <= j < k && Candidate(base, j) == Candidate(base, k);
      CandidateInjective(base, j, k);
    }
  }

  lemma {:induction false} SubsetSize(a: set<String>, b: set<String>)
    requires a <= b
    ensures |a| <= |b|
    decreases |b|
  {
    if a != {} {
      var x :| x in a;
      SubsetSize(a - {x}, b - {x});
    }
  }

  /** If the first `k` candidates are all taken, at least `k` slugs are in use. */
  lemma CandidatesBound(base: String, existing: set<String>, k: nat)
    requires forall j :: 0 <= j < k ==> Candidate(base, j) in existing
    ensures k <= |existing|
  {
    CandidatesSize(base, k);
    assert Candidates(base, k) <= existing;
    SubsetSize(Candidates(base, k), existing);
  }

  /** The first free counter from `k` on, given that the candidates below `k` are taken. */
  function FirstFree(base: String, existing: set<String>, k: nat): (r: nat)
    requires k >= 1
    requires forall j :: 0 <= j < k ==> Candidate(base, j) in existing
    ensures r >= k && Candidate(base, r) !in existing
    ensures forall j :: 0 <= j < r ==> Candidate(base, j) in existing
    decreases |existing| - k
  {
    CandidatesBound(base, existing, k);
    if Candidate(base, k) !in existing then k
    else
      CandidatesBound(base, existing, k + 1);
      FirstFree(base, existing, k + 1)
  }

  /**
    `generateSlug` against the slugs in use: the base when it is free, otherwise
    `base-k` for the smallest `k >= 1` that is free. The result is never taken.
   */
  function GenerateSlug(name: String, existing: set<String>): (r: String)
    ensures r !in existing
    ensures SlugBase(name) !in existing ==> r == SlugBase(name)
    ensures SlugBase(name) in existing ==>
              exists k :: k >= 1 && r == Candidate(SlugBase(name), k)
                          && forall j :: 0 <= j < k ==> Candidate(SlugBase(name), j) in existing
  {
    var base := SlugBase(name);
    if base !in existing then base else Candidate(base, FirstFree(base, existing, 1))
  }

  /** The `while` loop of `generateSlug`, counter by counter; it computes `GenerateSlug`. */
  method GenerateSlugLoop(name: String, existing: set<String>) returns (slug: String)
    ensures slug == GenerateSlug(name, existing)
    ensures slug !in existing
  {
    var original := SlugBase(name);
    slug := original;
    var counter: nat := 1;
    while slug in existing
      invariant counter >= 1
      invariant slug == Candidate(original, counter - 1)
      invariant forall j :: 0 <= j < counter - 1 ==> Candidate(original, j) in existing
      decreases |existing| + 1 - counter
    {
      CandidatesBound(original, existing, counter);
      slug := original + "-" + NatToString(counter);
      counter := counter + 1;
    }
    if counter > 1 {
      FirstFreeIsFirst(original, existing, 1, counter - 1);
    }
  }

  /** `FirstFree` returns the one free counter below which everything is taken. */
  lemma {:induction false} FirstFreeIsFirst(base: String, existing: set<String>, k: nat, m: nat)
    requires 1 <= k <= m
    requires forall j :: 0 <= j < m ==> Candidate(base, j) in existing
    requires Candidate(base, m) !in existing
    ensures FirstFree(base, existing, k) == m
    decreases m - k
  {
    CandidatesBound(base, existing, k);
    if k < m {
      FirstFreeIsFirst(base, existing, k + 1, m);
    }
  }
}

=== FILE: wrappers.dfy ===
/** Optional values: PHP's `null` next to a present value. */
module Wrappers {

  datatype Option<+T> = None | Some(value: T) {

    /** The value, or `default` when absent: PHP's `$x ?? $default`. */
    function GetOr(default: T): T {
      match this
      case Some(v) => v
      case None => default
    }
  }
}
